=== FILE: README.md ===
# oadin-sdk-js control plane, modelled in Dafny

The Oadin JavaScript SDK drives a local AI engine (the `oadin` binary and
its HTTP service on port 16688). This project models the SDK's control
plane and proves properties about it:

- the Fibonacci backoff schedule (`fibonacci`);
- the bounded retry loops (`isOadinAvailable`, `downloadFile`);
- the version check (`isOadinLatest`);
- the installer driver (`runInstallerByPlatform`), including the darwin
  poll that waits for the installed binary;
- starting and stopping the service (`startOadin`, `stopOadin`);
- the lifecycle chain (`isOadinExisted`, `downloadOadin`, `OadinInit`);
- the per-chunk decoders of the streaming calls (`installModelStream`,
  `chat`, `generate`);
- the `{ code, msg, data }` envelope built by `requestWithSchema`, and
  `applyDefaults`.

Every effect is an input to the model:

- What the environment answers to attempt `k` of a probe or download is a
  function of `k`.
- What a child process reports is a sequence of events, folded in order.
  The first event that settles a promise wins, because a settled promise
  ignores every later `resolve` or `reject`.
- `JSON.parse`, Ajv validation and `JSON.stringify` are function
  parameters.
- An asynchronous result is an `Outcome`: it resolves with a boolean,
  rejects with a reason, or stays `Pending` forever.

Modules:

- `Base`: shared vocabulary: `Option`, `Platform`, `Outcome`, and the
  `Step`s an operation takes.
- `JsText`: the JavaScript string operations used (`trim` with the full
  white-space set, `startsWith`, `includes`, ASCII `toLowerCase`, digit
  runs).
- `Attempts`: the first-success scan that both retry loops share.
- `Backoff`, `Health`, `Download`, `Version`, `Installer`, `Service`,
  `Stream`, `Envelope` and `Lifecycle` follow the SDK's functions.

Where the code and its documented intent differ, the model follows the
code:

- `isOadinLatest` can reject: a sub-version without a main version
  dereferences `null`.
- A darwin `startOadin` whose child exits with code 0 without printing the
  success phrase stays pending; it does not probe the service again.
- The darwin install poll only counts ticks without the binary. With the
  binary present but the service down, it never times out.
- `OadinInit` never downloads, because the existence check is not awaited.
  It also treats every configuration import as a success.
- Every request through the `Oadin` class answers code 500, because no
  axios instance is passed to `requestWithSchema`.
- `startOadin` compares the platform against the misspelled
  `"unsurported"`, so on an unsupported platform it never settles.

## Model

| member | source | states |
|---|---|---|
| Base.GetPlatform | tools.js:34-39 | `win32` and `darwin` are recognised exactly; every other name is unsupported |
| Backoff.Fibonacci | tools.js:58-64 | exactly `n` entries for `n >= 0` (one entry for `n = -1`, none below); entry `i` is `base * Fib(i)`; non-decreasing when `base >= 0` |
| Backoff.SlicePrefix | tools.js:63 | `slice(0, n)` keeps a prefix: `n` entries when available, and a negative `n` counts back from the length |
| Backoff.PlanIsScaledFib | tools.js:59-61 | the pairwise-sum recurrence seeded with `0, base` yields `base * Fib(k)` at every index |
| Backoff.PlanNonDecreasing | tools.js:59-63 | with a non-negative base the sleep schedule never shrinks |
| Attempts.FirstWhere | tools.js:11-28 | finds the first successful attempt in range, none earlier succeeds, and it answers none exactly when no attempt in range succeeds |
| Attempts.MoreAttemptsKeepSuccess | tools.js:11-28 | allowing more attempts never changes an already found first success |
| Health.IsOadinAvailable | tools.js:9-31 | true iff some attempt below `retries` saw 200 from both endpoints; exceptions are failed attempts; stops at the first success; sleeps `interval * Fib(j)` after failed attempt `j` except the last; no request when `retries <= 0` |
| Health.AvailableAgrees | tools.js:11-24 | the scan's verdict is the existential "some attempt below `retries` is healthy" |
| Health.HealthyAtOnce | tools.js:19-20 | a healthy first attempt answers true after exactly one attempt |
| Health.LongerProbeKeepsVerdict | index.js:32-54 | a probe with more attempts never turns available into unavailable |
| Download.DownloadFile | tools.js:121-151 | true iff one of the first `retries` attempts succeeds; at most `retries` attempts; stops at the first success; false when `retries < 1`; the partial file is removed after every failed attempt |
| Download.DownloadedAgrees | tools.js:122-150 | the download verdict is the existential "some attempt below `retries` succeeds" |
| Version.FindFrom | index.js:145-154 | the index `match` finds is the leftmost position where the tag and its capture match; there is none exactly when no position matches |
| Version.Capture | index.js:145-154 | a capture exists exactly when the pattern matches somewhere in the output, and it is the group of the leftmost match |
| Version.ParseMain | index.js:145-148 | a captured main version is `v`, digits, `.`, digits |
| Version.ParseSub | index.js:151-154 | a captured sub-version is a non-empty digit string |
| Version.IsCurrent | index.js:168-198 | a lower main version is outdated, a higher one is current whatever its sub-version, and an equal one is current iff its sub-version is at least the expected one |
| Version.Assess | index.js:144-198 | no sub-version gives false whatever the main version; a sub-version without a main version rejects with the `null` dereference; otherwise the three-way comparison decides |
| Version.IsOadinLatest | index.js:87-198 | an unsupported platform or a failed `oadin version` run gives false; otherwise its output is assessed |
| Version.ReportRoundTrip | index.js:145-154 | both version lines of an `oadin version` report are read back exactly, and the report is judged by the three-way comparison |
| Version.ExpectedConstants | index.js:165-171 | the expected versions are `v0.2` (the decimal 0.2) and 2025071814 |
| Version.ExpectedBuildIsCurrent | index.js:184-198 | a report of exactly the expected versions is current |
| Version.LegacyReportIsOutdated | index.js:156-160 | a report with only a main version is outdated, whatever that version is |
| Version.DecimalNotPair | index.js:169-171 | main versions compare as decimals: `v0.10` is below `v0.2`, and `v0.20` equals it |
| Version.BelowTransitive | index.js:173-179 | the main-version comparison is transitive |
| Version.NewerStaysCurrent | index.js:173-198 | anything newer than a current version is current too |
| Installer.WinInstall | tools.js:208-214 | the first event settles; it resolves iff that is a `close` with code 0, a non-zero code rejects with that code, a spawn error rejects with the launch error, and without events it stays unsettled |
| Installer.RunScript | tools.js:241-262 | the run is still going exactly when no `error` or `close` has come, and then it has captured every `stdout` chunk trimmed and every `stderr` chunk as it came; an `error` or `close` ends it at once |
| Installer.ScriptEndsAtFirstEnd | tools.js:245-262 | the first `error` or `close` decides the run: an `error` is a launch failure, and a `close` carries its code with the output and errors captured before it |
| Installer.ScriptEndIsFinal | tools.js:245-262 | once the script's process reported an error or closed, later events change nothing |
| Installer.ClassifyScript | tools.js:262-311 | a non-zero exit rejects before the output is read; only the exact success sentinel starts the poll; the failure prefix rejects with the trimmed rest; any other output rejects as unknown |
| Installer.Poll | tools.js:273-295 | resolves iff some tick finds the binary and a healthy service before the 100th tick without it; unsettled iff no tick succeeds and fewer than 100 ticks lacked the binary; rejects only with the timeout |
| Installer.NeverAppearsTimesOut | tools.js:289-294 | when the binary never appears, the poll is unsettled for 99 ticks and rejects with the timeout from the 100th |
| Installer.PresentButDownNeverSettles | tools.js:279-288 | ticks that find the binary but not a healthy service never advance the timeout, so such a poll stays unsettled however long it runs |
| Installer.DarwinInstall | tools.js:215-313 | a script still running leaves the promise unsettled; a launch error rejects; a finished script hands over to the poll when it exited 0 printing exactly the success sentinel, and otherwise rejects with the classified failure; it resolves, or times out, only after such a sentinel |
| Installer.RunInstallerByPlatform | tools.js:205-316 | win32 follows the silent installer, darwin the script and the poll, and any other platform rejects |
| Installer.ReadsTrimmedLine | tools.js:245-247 | a trimmed line the script prints is captured exactly |
| Installer.FailureDetailReadBack | tools.js:297-304 | the failure prefix, a space and a trimmed detail reject with that detail |
| Installer.ReportReadBack | tools.js:229-304 | what the AppleScript returns is read back: success starts the poll, and a failure rejects with the message and error number it reported |
| Service.WinLaunchFailed | index.js:324-331 | the win32 launch fails exactly when `execFile` reports an error or the lowered standard output followed by standard error has `error` at some position; so `error` on either stream fails it, and a quiet, clean launch does not |
| Service.ErrorAcrossStreams | index.js:328-330 | `error` split between the end of standard output and the start of standard error still fails the launch |
| Service.Verdict | index.js:347-377 | only the success phrase on standard output resolves true; a standard-error chunk never decides; a spawn error resolves false; a `close` decides nothing exactly when its code is 0 and no engine failure was reported |
| Service.DaemonStart | index.js:338-381 | the darwin promise never rejects |
| Service.PendingIffNoVerdict | index.js:345-378 | the darwin promise stays pending exactly when no event gives a verdict |
| Service.FirstVerdictSettles | index.js:345-378 | the first event that gives a verdict settles the promise with it, judged on the standard error gathered before that event |
| Service.SettledByFirstVerdict | index.js:345-378 | a settled darwin promise carries the verdict of the first event that gave one |
| Service.SettledIsFinal | index.js:345-378 | once the darwin promise has settled, later events change nothing |
| Service.EngineFailureBeatsExitCode | index.js:356-376 | an engine-installation failure on standard error makes the following `close` resolve false, whatever the exit code |
| Service.CleanExitStaysPending | index.js:347-373 | a clean exit without the success phrase leaves the promise pending |
| Service.StartOadin | index.js:304-385 | a service that answers the two-attempt probe is not launched and gives true; on an unsupported platform the promise never settles; win32 gives false on a launch error or on `error` in the output, otherwise the five-attempt probe's verdict; darwin gives false when spawning throws, otherwise the event fold; it never rejects |
| Service.RunningServiceIsNotLaunched | index.js:305-309 | when the first probe succeeds, no step starts a process |
| Service.WinErrorInAnyCase | index.js:327-330 | `error` in the win32 launch output fails the start in any letter case |
| Service.StopOadin | index.js:201-244 | true iff the platform is supported and the stop command ran without error |
| Stream.StripData | index.js:457 | a leading `data:` is removed, and nothing else is changed |
| Stream.InstallEvents | index.js:454-475 | a parse failure emits only an error; otherwise `data` with the trimmed text comes first; `end` iff the status is `success` or `error`; `canceled` iff it is `canceled`, and then it follows `data`; a `null` document emits `data` and then an error; any other document emits `data` alone |
| Stream.InstallChunk | index.js:454-461 | one or two events; the trimmed chunk is the `data` payload exactly when the parse succeeds; payloads have no surrounding white space; `end` carrying the chunk comes exactly when the document says success or failure, `canceled` exactly when it says canceled, the null-status error exactly when the document is `null`; a parse failure yields only the error with the parser's reason; a chunk never emits the bare `end` |
| Stream.FinishedInstallEmitsDataThenEnd | index.js:460-469 | a finished installation chunk emits exactly `data` and then `end`, with the same text |
| Stream.InstallFrameReadBack | index.js:456-458 | a `data:` frame reaches the parser without the prefix, and its events carry the frame without the newline |
| Stream.Decode | index.js:454-483 | a lone chunk yields exactly the chunk decoder's events; every `end` of the response stream becomes a bare `end`, and every stream error an error event |
| Stream.ChunkInContext | index.js:454-483 | a chunk is decoded in place whatever comes before and after it: the events of the inputs before it, its own events, then those of the inputs after it |
| Stream.DecodeInstall | index.js:454-483 | every input yields one or two events, and a lone chunk yields exactly `InstallChunk`'s events |
| Stream.DecodeChat | index.js:619-638 | exactly one event per input, in order: event `k` is the chunk's own event for a chunk, the transport error for a stream error, and the bare `end` for the stream's end |
| Stream.ChatPayload | index.js:620-623 | the text handed to the parser has no surrounding white space |
| Stream.ChatChunk | index.js:619-632 | exactly one event per chunk: an error for an empty payload, the parse error with the parser's reason for a malformed one, otherwise `data` with the parsed document; never `end` or `canceled` |
| Stream.ChatFrameReadBack | index.js:619-632 | a `data:` frame with optional white space reaches the parser as the JSON text itself, and its document becomes the `data` payload |
| Stream.ChatHasNoStatusEvents | index.js:619-638 | the chat and generation streams never emit `canceled`, and emit the bare `end` exactly when the response stream ended |
| Stream.BareEndMeansFinished | index.js:454-483 | an installation stream emits the bare `end` exactly when the response stream ended |
| Stream.DecodeConcat | index.js:454-483 | decoding is chunk by chunk: the events of a concatenated response are those of its parts in order |
| Stream.SetupFailureMessage | index.js:486-492 | a failed stream request reports the server's message, else the error's; when both are empty the installation stream falls back to the fixed text `请求失败`, so its message is never empty |
| Envelope.ApplyDefaults | axiosInstance.js:33-41 | every defined field is kept; an undefined or missing field takes the first default the schema supplies; the keys are those of the data plus the defaulted ones |
| Envelope.ApplyDefaultsIdempotent | axiosInstance.js:33-41 | applying the defaults twice is the same as once |
| Envelope.GivenFieldsKept | axiosInstance.js:36 | a field the caller gave a value is never replaced by a default |
| Envelope.ErrorMessage | axiosInstance.js:92-104 | a string body wins, then a truthy `message` of the body, then the serialised body, then the error's own message |
| Envelope.Success | axiosInstance.js:91 | code 200; `msg` is the body's truthy `message` or `null`; `data` is the body's truthy `data` or else the whole body |
| Envelope.RequestWithSchema | axiosInstance.js:53-106 | no instance gives 500 and sends nothing; a failed request schema gives 400 and sends nothing; an unsupported method gives 400; a sent request carries the caller's data, not the defaulted copy; transport errors give 400 with the chosen message; a response the response schema rejects gives 400 with the validation errors; a `null` or `undefined` body gives 400 with the `TypeError` message; 200 only for an answered, valid response with a readable body; `data` is `null` on every failure |
| Envelope.SentBodyIsCallersData | axiosInstance.js:62-76 | the validated copy with defaults is never what is sent |
| Envelope.ClientRequest | index.js:26-29 | every request through the class answers 500 and sends nothing |
| Envelope.ImportConfig | index.js:545-557 | an unreadable file answers 400 with the read error; any other answers 500 |
| Envelope.ImportNeverSucceeds | index.js:545-557 | importing a configuration never answers 200 and never carries data |
| Lifecycle.GetOadinExecutablePath | tools.js:154-163 | `null` exactly on an unsupported platform; under the home directory on win32; the fixed system path on darwin |
| Lifecycle.GetOadinInstallerPath | index.js:246-251 | `null` exactly on an unsupported platform; otherwise a URL that ends with the platform's installer file name |
| Lifecycle.IsOadinExisted | index.js:57-84 | true iff the binary exists and the version check says current; rejects iff the version check rejects; the service is stopped exactly when the engine is outdated; it never hangs |
| Lifecycle.OutdatedIsNeverReported | index.js:70-82 | an outdated engine is reported as absent after a stop attempt, whatever the probe then says |
| Lifecycle.DownloadOadin | index.js:273-301 | false on an unsupported platform; true iff the download succeeds and the installer resolves; pending iff the installer never settles; never rejects; the installer runs iff the download succeeded |
| Lifecycle.MoreRetriesKeepInstallation | index.js:288-296 | more download attempts never turn a successful installation into a failed one |
| Lifecycle.OadinInit | index.js:709-743 | a service that answers is left alone and gives true; otherwise the result is `startOadin`'s, after the existence test and, when the binary is there on a supported platform, the `oadin version` launch; nothing is ever downloaded or installed |
| Lifecycle.InitIgnoresInstallation | index.js:716-727 | what the existence check would find changes neither the result nor whether the service is launched |
| Lifecycle.InitIgnoresImportResult | index.js:735-741 | the configuration import's answer, even a 400, never changes the result, because the test `!importSuccess` is applied to the envelope object, which is always truthy |
| Lifecycle.InitHangsOnUnsupportedPlatform | index.js:315 | on an unsupported platform, with no service running, the call never settles |
| Lifecycle.InitLeavesRunningServiceAlone | index.js:710-714 | a running service is never relaunched |

## Left out

- Real effects are inputs, not behaviour: HTTP requests, `execFile` and `spawn`, the file system, timers and the sleep durations' wall-clock effect.
- Process-wide `PATH` changes around subprocess calls are not modelled. They are global mutable state, and `startOadin` never restores `PATH`.
- Logging (`winston`, `logAndConsole`) and `checkPort` have no effect on results.
- The thin API wrappers that only forward to the envelope helper are not modelled one by one. `Envelope.ClientRequest` covers all of them.
- `exportConfig` is not modelled: it writes a file.
- `runInstallerByPlatform0` is not modelled: it is not exported.
- `createAxiosInstance` is not modelled: it only configures axios.
- `isHealthy` has no row of its own: it is the predicate `Health.IsHealthy`, which is status equal to 200.
- Lifecycle.OadinInit: the unawaited existence check keeps running concurrently with `startOadin`. Only its synchronous part is a step here: the existence test and the `oadin version` launch. What it does after the version reply is not modelled: it may stop the service or leave an unhandled rejection.
- Overlapping darwin poll ticks are not modelled. A tick whose probe is still running when the next tick fires is treated as finished before that tick.
- Listener exceptions on the event emitters are not modelled, for example an `error` event with no listener.
- Version.IsCurrent: `parseFloat` and `parseInt` are exact here. Floating-point rounding of very long version numbers is not modelled.
- JsText.Lower: only ASCII letters are lowered.
- Lifecycle.GetOadinExecutablePath: `path.join` is a plain concatenation with `\`; path normalisation is not modelled.
- Envelope.Spread: spreading a string or an array into `applyDefaults` copies its indices in JavaScript; here those spread as no fields.
- Envelope.Js: numbers are integers, and properties of primitives (`length`, prototype methods) read as `undefined`.
- Envelope.ApplyDefaults: looks up only the object's own keys. In JavaScript `result[key]` also finds keys inherited from `Object.prototype` (`constructor`, `toString`, `valueOf`, `__proto__`, ...). For a schema property with such a name, the source never applies the default; the model does.
- Stream.SetupFailureMessage: the server's `message` is modelled as a string. A non-string `message` is not modelled.
- Service.StartOadin: the synchronous throw of `spawn` is a boolean input rather than a modelled failure cause.

=== FILE: Attempts.dfy ===
/** The bounded retry scan shared by the health prober and the downloader:
    attempts are numbered from 0, `ok(k)` is the outcome the environment
    gives attempt `k`, and at most `limit` attempts are made. */
module Attempts {
  import opened Base

  /** The first successful attempt among `from .. limit - 1`, if any. */
  function FirstWhere(ok: nat -> bool, limit: int, from: nat): (r: Option<nat>)
    ensures r.Some? ==> from <= r.value < limit && ok(r.value)
    ensures r.Some? ==> forall j | from <= j < r.value :: !ok(j)
    ensures r.None? <==> forall j | from <= j < limit :: !ok(j)
    decreases limit - from
  {
    if limit <= from then None
    else if ok(from) then Some(from)
    else FirstWhere(ok, limit, from + 1)
  }

  /** Some attempt among the first `limit` succeeds. */
  function Succeeds(ok: nat -> bool, limit: int): bool {
    FirstWhere(ok, limit, 0).Some?
  }

  /** The number of attempts a loop that stops at the first success makes. */
  function AttemptsMade(ok: nat -> bool, limit: int): (n: nat)
    ensures n <= (if limit < 0 then 0 else limit)
    ensures Succeeds(ok, limit) ==> n > 0 && ok(n - 1)
  {
    match FirstWhere(ok, limit, 0)
    case Some(k) => k + 1
    case None => if limit < 0 then 0 else limit
  }

  /** Allowing more attempts never loses a success, and the winning attempt
      stays the same. */
  lemma {:induction false} MoreAttemptsKeepSuccess(ok: nat -> bool, a: int, b: int, from: nat)
    requires a <= b
    requires FirstWhere(ok, a, from).Some?
    ensures FirstWhere(ok, b, from) == FirstWhere(ok, a, from)
    decreases a - from
  {
    if !ok(from) {
      MoreAttemptsKeepSuccess(ok, a, b, from + 1);
    }
  }
}

=== FILE: Backoff.dfy ===
/** The backoff scheduler of `tools.js`: `fibonacci(n, base)` yields the
    sleep durations of a retry loop. */
module Backoff {

  /** The Fibonacci numbers, 0, 1, 1, 2, 3, 5, ... */
  function Fib(i: nat): nat {
    if i < 2 then i else Fib(i - 1) + Fib(i - 2)
  }

  /** `arr.slice(0, n)`: a negative end counts back from the length. */
  function SlicePrefix<T>(arr: seq<T>, n: int): (r: seq<T>)
    ensures n >= 0 ==> |r| == (if n <= |arr| then n else |arr|)
    ensures n < 0 ==> |r| == (if |arr| + n < 0 then 0 else |arr| + n)
    ensures r == arr[..|r|]
  {
    if n >= 0 then (if n <= |arr| then arr[..n] else arr)
    else if |arr| + n < 0 then [] else arr[..|arr| + n]
  }

  /** `fibonacci(n, base)`: seeds `[0, base]`, extends it up to index
      `n + 1` by summing the two previous entries, and keeps the first `n`. */
  method Fibonacci(n: int, base: int) returns (r: seq<int>)
    ensures n >= 0 ==> |r| == n
    ensures n < 0 ==> |r| == (if n == -1 then 1 else 0)
    ensures forall i | 0 <= i < |r| :: r[i] == base * Fib(i)
    ensures base >= 0 ==> forall i, j | 0 <= i <= j < |r| :: r[i] <= r[j]
  {
    var arr := [0, base];
    var i := 2;
    while i < n + 2
      invariant 2 <= i && |arr| == i
      invariant n >= 0 ==> i <= n + 2
      invariant n < 0 ==> i == 2
      invariant forall k | 0 <= k < i :: arr[k] == Plan(base, k)
    {
      assert Plan(base, i) == Plan(base, i - 1) + Plan(base, i - 2);
      arr := arr + [arr[i - 1] + arr[i - 2]];
      i := i + 1;
    }
    r := SlicePrefix(arr, n);
    PrefixOfPlan(arr, base, r);
  }

  /** A prefix of the computed entries is the scaled Fibonacci schedule. */
  lemma PrefixOfPlan(arr: seq<int>, base: int, r: seq<int>)
    requires forall k | 0 <= k < |arr| :: arr[k] == Plan(base, k)
    requires |r| <= |arr| && r == arr[..|r|]
    ensures forall i | 0 <= i < |r| :: r[i] == base * Fib(i)
    ensures base >= 0 ==> forall i, j | 0 <= i <= j < |r| :: r[i] <= r[j]
  {
    forall k | 0 <= k < |r|
      ensures r[k] == base * Fib(k)
    {
      assert r[k] == arr[k];
      PlanIsScaledFib(base, k);
    }
    if base >= 0 {
      PlanNonDecreasing(r, base);
    }
  }

  /** A prefix of `base * Fib(0), base * Fib(1), ...` never decreases when the
      base is non-negative. */
  lemma PlanNonDecreasing(r: seq<int>, base: int)
    requires base >= 0
    requires forall i | 0 <= i < |r| :: r[i] == base * Fib(i)
    ensures forall i, j | 0 <= i <= j < |r| :: r[i] <= r[j]
  {
    forall i, j | 0 <= i <= j < |r|
      ensures r[i] <= r[j]
    {
      ScaledFibMonotone(base, i, j);
    }
  }

  lemma {:induction false} FibMonotone(i: nat, j: nat)
    requires i <= j
    ensures Fib(i) <= Fib(j)
    decreases j - i
  {
    if i < j {
      FibMonotone(i, j - 1);
      assert Fib(j - 1) <= Fib(j) by {
        if j >= 2 { assert Fib(j) == Fib(j - 1) + Fib(j - 2); }
      }
    }
  }

  /** With a non-negative base the backoff plan never shrinks. */
  lemma ScaledFibMonotone(base: int, i: nat, j: nat)
    requires base >= 0 && i <= j
    ensures base * Fib(i) <= base * Fib(j)
  {
    FibMonotone(i, j);
    MulMonotone(base, Fib(i), Fib(j));
  }

  /** The entries the loop computes, defined the way the loop computes them. */
  function Plan(base: int, k: nat): int {
    if k == 0 then 0 else if k == 1 then base else Plan(base, k - 1) + Plan(base, k - 2)
  }

  lemma {:induction false} PlanIsScaledFib(base: int, k: nat)
    ensures Plan(base, k) == base * Fib(k)
  {
    if k >= 2 {
      PlanIsScaledFib(base, k - 1);
      PlanIsScaledFib(base, k - 2);
      Distribute(base, Fib(k - 1), Fib(k - 2));
    }
  }

  lemma Distribute(a: int, x: int, y: int)
    ensures a * x + a * y == a * (x + y)
  {
  }

  lemma MulMonotone(a: nat, x: nat, y: nat)
    requires x <= y
    ensures a * x <= a * y
  {
  }
}

=== FILE: Base.dfy ===
/** Shared vocabulary of the model: optional values, the platform switch,
    the settlement of an asynchronous operation, and the externally visible
    steps the lifecycle operations take. */
module Base {

  /** A value that may be absent (JavaScript `null`/`undefined` at a boundary). */
  datatype Option<+T> = None | Some(value: T)

  /** The three answers of `getPlatform`. */
  datatype Platform = Win32 | Darwin | Unsupported

  /** Maps the host's `process.platform` name to a platform: only `win32` and
      `darwin` are recognised, every other name is unsupported. */
  function GetPlatform(name: string): (p: Platform)
    ensures p == Win32 <==> name == "win32"
    ensures p == Darwin <==> name == "darwin"
    ensures p == Unsupported <==> name != "win32" && name != "darwin"
  {
    if name == "win32" then Win32
    else if name == "darwin" then Darwin
    else Unsupported
  }

  /** How an `async` operation that answers with a boolean ends: it resolves
      with a value, it rejects (throws), or its promise never settles. */
  datatype Outcome = Returned(value: bool) | Thrown(reason: string) | Pending

  /** The externally visible actions of the lifecycle operations, in order. */
  datatype Step =
    | Probe(retries: int, interval: int)   // one call of the health prober
    | CheckExistence                       // `fs.existsSync` on the engine binary
    | QueryVersion                         // running `oadin version`
    | StopService                          // running `oadin server stop`
    | DownloadInstaller                    // fetching the installer package
    | RunInstaller                         // launching the installer
    | LaunchService                        // launching the engine
    | ImportConfig                         // reading and posting a configuration file

  /** True when the step starts a subprocess. */
  predicate IsLaunch(s: Step) {
    s.QueryVersion? || s.StopService? || s.RunInstaller? || s.LaunchService?
  }
}

=== FILE: Download.dfy ===
/** The retry control of `downloadFile`. Attempts are numbered 1 .. retries
    in the source; here attempt `a` is `succeeded(a - 1)`: whether the target
    directory was writable, the GET answered 200 and the file was written. */
module Download {
  import Attempts

  /** Whether some attempt of a `retries`-attempt download succeeds. */
  function Downloaded(succeeded: nat -> bool, retries: int): bool {
    Attempts.Succeeds(succeeded, retries)
  }

  /** `downloadFile(url, dest, options, retries)`. Besides the verdict it
      reports the attempts made and how many times a partial file was removed
      (once after every failed attempt). */
  method DownloadFile(succeeded: nat -> bool, retries: int)
    returns (ok: bool, attempts: nat, removals: nat)
    ensures ok <==> exists k | 0 <= k < retries :: succeeded(k)
    ensures ok == Downloaded(succeeded, retries)
    ensures retries < 1 ==> !ok && attempts == 0
    ensures attempts <= (if retries < 0 then 0 else retries)
    ensures ok ==> attempts > 0 && succeeded(attempts - 1)
    ensures forall k | 0 <= k < attempts - 1 :: !succeeded(k)
    ensures !ok ==> attempts == (if retries < 0 then 0 else retries)
    ensures removals == (if ok then attempts - 1 else attempts)
  {
    attempts := 0;
    removals := 0;
    var attempt := 1;
    while attempt <= retries
      invariant 1 <= attempt && (retries >= 1 ==> attempt <= retries)
      invariant retries < 1 ==> attempt == 1
      invariant attempts == attempt - 1 && removals == attempts
      invariant forall k | 0 <= k < attempts :: !succeeded(k)
    {
      attempts := attempts + 1;
      if succeeded(attempt - 1) {
        ok := true;
        DownloadedAgrees(succeeded, retries);
        return;
      }
      removals := removals + 1;
      if attempt == retries {
        ok := false;
        DownloadedAgrees(succeeded, retries);
        return;
      }
      attempt := attempt + 1;
    }
    ok := false;
    DownloadedAgrees(succeeded, retries);
  }

  lemma DownloadedAgrees(succeeded: nat -> bool, retries: int)
    ensures Downloaded(succeeded, retries) <==> exists k | 0 <= k < retries :: succeeded(k)
  {
    var r := Attempts.FirstWhere(succeeded, retries, 0);
    if r.Some? {
      assert succeeded(r.value);
    }
  }
}

=== FILE: Envelope.dfy ===
/** The schema-checked request helper of `axiosInstance.js`
    (`applyDefaults`, `requestWithSchema`) and the way the `Oadin` class
    calls it. Every answer is an envelope `{ code, msg, data }`. JSON values
    are modelled as a datatype; schema validation, `JSON.stringify` and the
    HTTP exchange are parameters. */
module Envelope {
  import opened Base

  /** A JavaScript value as far as the helper inspects it. Numbers are
      integers here. */
  datatype Js =
    | Undefined
    | Null
    | Bool(b: bool)
    | Num(n: int)
    | Str(s: string)
    | Arr(items: seq<Js>)
    | Obj(fields: map<string, Js>)

  /** JavaScript truthiness. */
  predicate Truthy(v: Js) {
    match v
    case Undefined => false
    case Null => false
    case Bool(b) => b
    case Num(n) => n != 0
    case Str(s) => s != []
    case Arr(_) => true
    case Obj(_) => true
  }

  /** Reading property `key` of `v`: `None` is the `TypeError` thrown for
      `null` and `undefined`; a missing property reads as `undefined`. */
  function Get(v: Js, key: string): (r: Option<Js>)
    ensures r.None? <==> v.Undefined? || v.Null?
    ensures v.Obj? && key !in v.fields ==> r == Some(Undefined)
  {
    match v
    case Undefined => None
    case Null => None
    case Obj(fields) => Some(if key in fields then fields[key] else Undefined)
    case _ => Some(Undefined)
  }

  /** Optional chaining `v?.key`: `undefined` instead of a `TypeError`. */
  function OptGet(v: Js, key: string): Js {
    match Get(v, key)
    case None => Undefined
    case Some(x) => x
  }

  /** Looking a key up in an object's own fields. */
  function Lookup(m: map<string, Js>, k: string): Js {
    if k in m then m[k] else Undefined
  }

  /** One entry of a schema's `properties`, with its `default` (`Undefined`
      when the schema gives none). */
  datatype Prop = Prop(key: string, default: Js)

  /** The default the first entry for `k` with a default supplies. */
  function DefaultOf(props: seq<Prop>, k: string): Js {
    if props == [] then Undefined
    else if props[0].key == k && props[0].default != Undefined then props[0].default
    else DefaultOf(props[1..], k)
  }

  /** Whether some entry supplies a default for `k`. */
  predicate HasDefault(props: seq<Prop>, k: string) {
    DefaultOf(props, k) != Undefined
  }

  /** `applyDefaults(data, schema)` on the copied fields of `data`: every
      property whose value is `undefined` takes its schema default, and every
      other field is kept. */
  function ApplyDefaults(result: map<string, Js>, props: seq<Prop>): (r: map<string, Js>)
    ensures forall k :: Lookup(r, k) == (if Lookup(result, k) != Undefined then Lookup(result, k) else DefaultOf(props, k))
    ensures forall k :: k in r <==> k in result || HasDefault(props, k)
    decreases |props|
  {
    if props == [] then result
    else
      var p := props[0];
      var next := if Lookup(result, p.key) == Undefined && p.default != Undefined then result[p.key := p.default] else result;
      ApplyDefaults(next, props[1..])
  }

  /** The fields `{ ...data }` copies. Spreading a string or an array copies
      its indices, which is not modelled: those spread as no fields here. */
  function Spread(data: Js): map<string, Js> {
    if data.Obj? then data.fields else map[]
  }

  /** The envelope every call answers with. */
  datatype Envelope = Envelope(code: int, msg: Js, data: Js)

  /** The envelope as the caller receives it: a plain object with the three
      fields, which is truthy whatever they hold. */
  function AsJs(e: Envelope): (v: Js)
    ensures v.Obj? && Get(v, "code") == Some(Num(e.code))
    ensures Get(v, "msg") == Some(e.msg) && Get(v, "data") == Some(e.data)
  {
    Obj(map["code" := Num(e.code), "msg" := e.msg, "data" := e.data])
  }

  /** How the HTTP exchange ended: the response body (the instance's
      interceptor hands back `response.data`), or an error with its message
      and, when the server answered, the body it sent. */
  datatype Reply = Answered(body: Js) | Failed(message: string, response: Option<Js>)

  /** What a call did: its envelope and the body it sent, if it sent one. */
  datatype Call = Call(envelope: Envelope, sent: Option<Js>)

  const SupportedMethods: set<string> := {"get", "post", "put", "delete"}

  /** The message of the 400 envelope built from a caught error: a string
      body wins, then a truthy `message` field of the body, then the body
      itself serialised, then the error's own message. */
  function ErrorMessage(message: string, response: Option<Js>, stringify: Js -> string): (m: Js)
    ensures response.None? ==> m == Str(message)
    ensures response.Some? && response.value.Str? ==> m == response.value
    ensures response.Some? && !response.value.Str? && Truthy(OptGet(response.value, "message")) ==>
              m == OptGet(response.value, "message")
    ensures response.Some? && !response.value.Str? && !Truthy(OptGet(response.value, "message")) ==>
              m == (if Truthy(response.value) then Str(stringify(response.value)) else Str(message))
  {
    if response.None? then Str(message)
    else
      var d := response.value;
      if d.Str? then d
      else if Truthy(OptGet(d, "message")) then OptGet(d, "message")
      else if Truthy(d) then Str(stringify(d))
      else Str(message)
  }

  /** The message of the `TypeError` thrown by reading `message` of a
      `null` or `undefined` response body. */
  function NullBodyMessage(body: Js): string {
    if body.Null? then "Cannot read properties of null (reading 'message')"
    else "Cannot read properties of undefined (reading 'message')"
  }

  /** The envelope of a request that came back: `msg` is the body's
      `message` when truthy, and `data` its `data` field when truthy, else
      the whole body. */
  function Success(body: Js): (e: Envelope)
    requires Get(body, "message").Some?
    ensures e.code == 200
    ensures e.msg == (if Truthy(OptGet(body, "message")) then OptGet(body, "message") else Null)
    ensures Truthy(OptGet(body, "data")) ==> e.data == OptGet(body, "data")
    ensures !Truthy(OptGet(body, "data")) ==> e.data == body
  {
    var m := Get(body, "message").value;
    var d := Get(body, "data").value;
    Envelope(200, if Truthy(m) then m else Null, if Truthy(d) then d else body)
  }

  /** The request passes its schema check: there is no request schema, or
      the caller's data with the defaults applied validates. */
  predicate RequestAccepted(data: Js, requestSchema: Option<seq<Prop>>, validateRequest: Js -> Option<string>) {
    requestSchema.None? || validateRequest(Obj(ApplyDefaults(Spread(data), requestSchema.value))).None?
  }

  /** `requestWithSchema({ method, url, data, schema, instance })`.
      `requestSchema` lists the request schema's properties when there is
      one; `validateRequest` and `validateResponse` give the validator's
      serialised errors, or `None` when the value is valid; `exchange` says
      how the request would end. */
  function RequestWithSchema(hasInstance: bool, verb: string, data: Js,
                             requestSchema: Option<seq<Prop>>, validateRequest: Js -> Option<string>,
                             hasResponseSchema: bool, validateResponse: Js -> Option<string>,
                             exchange: Reply, stringify: Js -> string): (c: Call)
    ensures !hasInstance ==> c == Call(Envelope(500, Str("Axios instance is required"), Null), None)
    ensures c.envelope.code in {200, 400, 500}
    ensures c.envelope.code == 500 <==> !hasInstance
    ensures c.sent.Some? ==> c.sent == Some(data) && verb in SupportedMethods
    ensures c.envelope.code == 200 ==>
              c.sent.Some? && exchange.Answered? &&
              (!hasResponseSchema || validateResponse(exchange.body).None?) &&
              Get(exchange.body, "message").Some?
    ensures c.envelope.code != 200 ==> c.envelope.data == Null
    ensures hasInstance && requestSchema.Some? &&
            validateRequest(Obj(ApplyDefaults(Spread(data), requestSchema.value))).Some? ==>
              c == Call(Envelope(400, Str("Request schema validation failed: " +
                                         validateRequest(Obj(ApplyDefaults(Spread(data), requestSchema.value))).value), Null), None)
    ensures hasInstance && RequestAccepted(data, requestSchema, validateRequest) && verb !in SupportedMethods ==>
              c == Call(Envelope(400, Str("不支持的请求方法"), Null), None)
    ensures c.sent.Some? <==> hasInstance && RequestAccepted(data, requestSchema, validateRequest) && verb in SupportedMethods
    ensures c.sent.Some? && exchange.Failed? ==>
              c.envelope == Envelope(400, ErrorMessage(exchange.message, exchange.response, stringify), Null)
    ensures (c.sent.Some? && exchange.Answered? && (!hasResponseSchema || validateResponse(exchange.body).None?) &&
             Get(exchange.body, "message").Some?) ==> c.envelope == Success(exchange.body)
    ensures c.sent.Some? && exchange.Answered? && hasResponseSchema && validateResponse(exchange.body).Some? ==>
              c.envelope == Envelope(400, Str("Response schema validation failed: " + validateResponse(exchange.body).value), Null)
    ensures (c.sent.Some? && exchange.Answered? && (!hasResponseSchema || validateResponse(exchange.body).None?) &&
             Get(exchange.body, "message").None?) ==> c.envelope == Envelope(400, Str(NullBodyMessage(exchange.body)), Null)
  {
    if !hasInstance then Call(Envelope(500, Str("Axios instance is required"), Null), None)
    else
      var rejected :=
        if requestSchema.Some? then validateRequest(Obj(ApplyDefaults(Spread(data), requestSchema.value))) else None;
      if rejected.Some? then Call(Envelope(400, Str("Request schema validation failed: " + rejected.value), Null), None)
      else if verb !in SupportedMethods then Call(Envelope(400, Str("不支持的请求方法"), Null), None)
      else match exchange
        case Failed(message, response) =>
          Call(Envelope(400, ErrorMessage(message, response, stringify), Null), Some(data))
        case Answered(body) =>
          var invalid := if hasResponseSchema then validateResponse(body) else None;
          if invalid.Some? then
            Call(Envelope(400, Str("Response schema validation failed: " + invalid.value), Null), Some(data))
          else if Get(body, "message").None? then
            Call(Envelope(400, Str(NullBodyMessage(body)), Null), Some(data))
          else Call(Success(body), Some(data))
  }

  /** The class's `_requestWithSchema` never hands the helper an instance,
      so every call through it answers 500 without sending anything. */
  function ClientRequest(verb: string, data: Js,
                         requestSchema: Option<seq<Prop>>, validateRequest: Js -> Option<string>,
                         hasResponseSchema: bool, validateResponse: Js -> Option<string>,
                         exchange: Reply, stringify: Js -> string): (c: Call)
    ensures c.envelope.code == 500 && c.sent.None?
  {
    RequestWithSchema(false, verb, data, requestSchema, validateRequest,
                      hasResponseSchema, validateResponse, exchange, stringify)
  }

  /** `importConfig(filePath)`: a failed read answers 400 with the read
      error's message; otherwise the file's text is posted through the
      class's helper, with a response schema. */
  function ImportConfig(read: Option<string>, readError: string,
                        validateResponse: Js -> Option<string>, exchange: Reply,
                        stringify: Js -> string): (e: Envelope)
    ensures read.None? ==> e == Envelope(400, Str(readError), Null)
    ensures read.Some? ==> e.code == 500
  {
    match read
    case None => Envelope(400, Str(readError), Null)
    case Some(text) =>
      ClientRequest("post", Str(text), None, _ => None, true, validateResponse, exchange, stringify).envelope
  }

  // ---------------------------------------------------------------- lemmas

  /** Applying the defaults a second time changes nothing. */
  lemma ApplyDefaultsIdempotent(data: map<string, Js>, props: seq<Prop>)
    ensures ApplyDefaults(ApplyDefaults(data, props), props) == ApplyDefaults(data, props)
  {
    var once := ApplyDefaults(data, props);
    var twice := ApplyDefaults(once, props);
    forall k | k in twice
      ensures k in once && twice[k] == once[k]
    {
      assert Lookup(twice, k) == Lookup(once, k);
    }
    forall k | k in once
      ensures k in twice
    {
    }
  }

  /** A field the caller gave a value is never replaced by a default. */
  lemma GivenFieldsKept(data: map<string, Js>, props: seq<Prop>, k: string)
    requires k in data && data[k] != Undefined
    ensures k in ApplyDefaults(data, props) && ApplyDefaults(data, props)[k] == data[k]
  {
    assert Lookup(ApplyDefaults(data, props), k) == data[k];
  }

  /** Without a request schema the defaults are not applied and the caller's
      data is sent as given: a request that is sent always carries the
      caller's data, never the defaulted copy that was validated. */
  lemma SentBodyIsCallersData(verb: string, data: Js, props: seq<Prop>,
                              validateRequest: Js -> Option<string>, hasResponseSchema: bool,
                              validateResponse: Js -> Option<string>, exchange: Reply, stringify: Js -> string)
    requires verb in SupportedMethods
    requires validateRequest(Obj(ApplyDefaults(Spread(data), props))).None?
    ensures RequestWithSchema(true, verb, data, Some(props), validateRequest, hasResponseSchema,
                              validateResponse, exchange, stringify).sent == Some(data)
  {
  }

  /** `importConfig` never reports success, whatever the file and the
      server say. */
  lemma ImportNeverSucceeds(read: Option<string>, readError: string,
                            validateResponse: Js -> Option<string>, exchange: Reply, stringify: Js -> string)
    ensures ImportConfig(read, readError, validateResponse, exchange, stringify).code != 200
    ensures ImportConfig(read, readError, validateResponse, exchange, stringify).data == Null
  {
  }
}

=== FILE: Health.dfy ===
/** The health prober (`isOadinAvailable`, present with the same body in
    `tools.js` and as a method of the `Oadin` class in `index.js`). Each
    attempt GETs the `/health` and `/engine/health` endpoints together; what
    the environment answers to attempt `k` is `attempt(k)`. */
module Health {
  import opened Base
  import Attempts
  import Backoff

  /** The two status codes of one attempt, or the exception that attempt threw
      (either request failing rejects the combined `Promise.all`). */
  datatype AttemptOutcome = Responded(health: int, engine: int) | Threw(message: string)

  /** `isHealthy`: only status 200 counts as healthy. */
  predicate IsHealthy(status: int) {
    status == 200
  }

  /** An attempt succeeds when both endpoints answered 200; an exception is a
      failed attempt, never a verdict. */
  predicate AttemptOk(o: AttemptOutcome) {
    o.Responded? && IsHealthy(o.health) && IsHealthy(o.engine)
  }

  /** Which attempts succeed. */
  function OkAt(attempt: nat -> AttemptOutcome): nat -> bool {
    (k: nat) => AttemptOk(attempt(k))
  }

  /** The verdict of a probe with `retries` attempts. */
  function Available(attempt: nat -> AttemptOutcome, retries: int): bool {
    Attempts.Succeeds(OkAt(attempt), retries)
  }

  /** `isOadinAvailable(retries, interval)`. Besides the verdict it reports
      how many attempts were made and the durations it slept, in order. */
  method IsOadinAvailable(attempt: nat -> AttemptOutcome, retries: int, interval: int)
    returns (available: bool, attempts: nat, sleeps: seq<int>)
    ensures available <==> exists k | 0 <= k < retries :: AttemptOk(attempt(k))
    ensures available == Available(attempt, retries)
    ensures retries <= 0 ==> !available && attempts == 0
    ensures available ==> 0 < attempts <= retries && AttemptOk(attempt(attempts - 1))
    ensures forall k | 0 <= k < attempts - 1 :: !AttemptOk(attempt(k))
    ensures !available ==> attempts == (if retries < 0 then 0 else retries)
    ensures |sleeps| == (if attempts == 0 then 0 else attempts - 1)
    ensures forall j | 0 <= j < |sleeps| :: sleeps[j] == interval * Backoff.Fib(j)
  {
    var fibArr := Backoff.Fibonacci(retries, interval);
    attempts := 0;
    sleeps := [];
    var k := 0;
    while k < retries
      invariant 0 <= k && (retries >= 0 ==> k <= retries)
      invariant retries < 0 ==> k == 0
      invariant attempts == k
      invariant forall j | 0 <= j < k :: !AttemptOk(attempt(j))
      invariant |sleeps| == (if k == 0 then 0 else if k < retries then k else k - 1)
      invariant forall j | 0 <= j < |sleeps| :: sleeps[j] == interval * Backoff.Fib(j)
    {
      attempts := attempts + 1;
      var outcome := attempt(k);
      match outcome {
        case Responded(h, e) =>
          if IsHealthy(h) && IsHealthy(e) {
            available := true;
            AvailableAgrees(attempt, retries);
            return;
          }
        case Threw(_) =>
      }
      if k < retries - 1 {
        sleeps := sleeps + [fibArr[k]];
      }
      k := k + 1;
    }
    available := false;
    AvailableAgrees(attempt, retries);
  }

  lemma AvailableAgrees(attempt: nat -> AttemptOutcome, retries: int)
    ensures Available(attempt, retries) <==> exists k | 0 <= k < retries :: AttemptOk(attempt(k))
  {
    var ok := OkAt(attempt);
    var r := Attempts.FirstWhere(ok, retries, 0);
    if r.Some? {
      assert ok(r.value);
    } else {
      forall k | 0 <= k < retries
        ensures !AttemptOk(attempt(k))
      {
        assert !ok(k);
      }
    }
  }

  /** A probe whose first attempt succeeds answers true after one attempt and
      no sleep. */
  lemma HealthyAtOnce(attempt: nat -> AttemptOutcome, retries: int)
    requires retries >= 1 && AttemptOk(attempt(0))
    ensures Available(attempt, retries)
    ensures Attempts.AttemptsMade(OkAt(attempt), retries) == 1
  {
  }

  /** A longer probe never turns an available verdict into an unavailable one. */
  lemma LongerProbeKeepsVerdict(attempt: nat -> AttemptOutcome, short: int, long: int)
    requires short <= long && Available(attempt, short)
    ensures Available(attempt, long)
  {
    Attempts.MoreAttemptsKeepSuccess(OkAt(attempt), short, long, 0);
  }
}

=== FILE: Installer.dfy ===
/** The installer driver, `runInstallerByPlatform`. On win32 the silent
    installer's exit code decides; on darwin an AppleScript run through
    `osascript` installs the package with administrator rights and reports a
    sentinel on its standard output, after which a once-a-second poll waits
    for the binary and the service. */
module Installer {
  import opened Base
  import opened JsText
  import Health

  /** The poll gives up on the 100th tick without the binary. */
  const MaxPollRetries: nat := 100

  const SuccessSentinel: string := "INSTALL_SUCCESS"
  const FailurePrefix: string := "INSTALL_FAILED:"

  /** Why the installer promise rejects. */
  datatype InstallError =
    | LaunchFailed(message: string)                   // the child process could not start
    | ExitCode(code: Option<int>)                     // the silent installer exited non-zero (`null` when killed)
    | ScriptExit(code: Option<int>, stderr: string)   // `osascript` itself exited non-zero
    | InstallFailed(detail: string)                   // the script reported `INSTALL_FAILED:`
    | UnknownOutput(output: string, stderr: string)   // the script printed neither sentinel
    | Timeout                                         // the binary never appeared during the poll
    | PlatformNotSupported

  /** The state of the installer promise after the events seen so far. */
  datatype Settlement = Resolved | Rejected(error: InstallError) | Unsettled

  // ------------------------------------------------------------ win32

  /** What the silent installer's child process reports. */
  datatype ProcessEvent = SpawnError(message: string) | Close(code: Option<int>)

  /** Win32: the first `error` or `close` settles the promise; a promise
      ignores every later `resolve` or `reject`. */
  function WinInstall(events: seq<ProcessEvent>): (r: Settlement)
    ensures r == Resolved <==> |events| > 0 && events[0] == Close(Some(0))
    ensures r == Unsettled <==> events == []
    ensures |events| > 0 && events[0].Close? && events[0].code != Some(0) ==> r == Rejected(ExitCode(events[0].code))
    ensures |events| > 0 && events[0].SpawnError? ==> r == Rejected(LaunchFailed(events[0].message))
  {
    if events == [] then Unsettled
    else match events[0]
      case SpawnError(m) => Rejected(LaunchFailed(m))
      case Close(code) => if code == Some(0) then Resolved else Rejected(ExitCode(code))
  }

  // ----------------------------------------------------------- darwin

  /** What the `osascript` child process reports. */
  datatype ScriptEvent =
    | Stdout(chunk: string)
    | Stderr(chunk: string)
    | ScriptError(message: string)
    | ScriptClose(code: Option<int>)

  /** How the `osascript` run has ended so far, with the captured output:
      each standard-output chunk is trimmed before it is appended, the
      standard-error chunks are appended as they are. */
  datatype ScriptEnd =
    | Running(output: string, errors: string)
    | LaunchError(message: string)
    | Closed(code: Option<int>, output: string, errors: string)

  /** An `error` or a `close`: the events after which the `stdout` and
      `stderr` handlers no longer matter. */
  predicate EndsRun(e: ScriptEvent) {
    e.ScriptError? || e.ScriptClose?
  }

  /** What one event adds to the captured standard output: a `stdout`
      chunk, trimmed. */
  function OutPart(e: ScriptEvent): string {
    if e.Stdout? then Trim(e.chunk) else ""
  }

  /** What one event adds to the captured standard error: a `stderr` chunk,
      as it came. */
  function ErrPart(e: ScriptEvent): string {
    if e.Stderr? then e.chunk else ""
  }

  /** The standard output captured from a run of events. */
  function StdoutText(events: seq<ScriptEvent>): string {
    if events == [] then "" else OutPart(events[0]) + StdoutText(events[1..])
  }

  /** The standard error captured from a run of events. */
  function StderrText(events: seq<ScriptEvent>): string {
    if events == [] then "" else ErrPart(events[0]) + StderrText(events[1..])
  }

  /** The `osascript` run after `events`, starting from the captured
      `output` and `errors`: it is still running exactly when no event ended
      it, and then has captured every trimmed output chunk and every error
      chunk; an `error` or `close` event ends it at once. */
  function RunScript(events: seq<ScriptEvent>, output: string, errors: string): (r: ScriptEnd)
    ensures r.Running? <==> forall k | 0 <= k < |events| :: !EndsRun(events[k])
    ensures r.Running? ==> r == Running(output + StdoutText(events), errors + StderrText(events))
    ensures events != [] && events[0].ScriptError? ==> r == LaunchError(events[0].message)
    ensures events != [] && events[0].ScriptClose? ==> r == Closed(events[0].code, output, errors)
    decreases |events|
  {
    if events == [] then Running(output, errors)
    else if events[0].ScriptError? then LaunchError(events[0].message)
    else if events[0].ScriptClose? then Closed(events[0].code, output, errors)
    else
      var e := events[0];
      NoEndStep(events);
      assert output + StdoutText(events) == (output + OutPart(e)) + StdoutText(events[1..]);
      assert errors + StderrText(events) == (errors + ErrPart(e)) + StderrText(events[1..]);
      RunScript(events[1..], output + OutPart(e), errors + ErrPart(e))
  }

  lemma NoEndStep(events: seq<ScriptEvent>)
    requires events != []
    ensures (forall k | 0 <= k < |events| :: !EndsRun(events[k])) <==>
              !EndsRun(events[0]) && forall k | 0 <= k < |events[1..]| :: !EndsRun(events[1..][k])
  {
    if !EndsRun(events[0]) && forall k | 0 <= k < |events[1..]| :: !EndsRun(events[1..][k]) {
      forall k | 0 <= k < |events|
        ensures !EndsRun(events[k])
      {
        if k > 0 { assert events[k] == events[1..][k - 1]; }
      }
    }
  }

  /** The decision the `close` handler takes. */
  datatype ScriptVerdict = StartPolling | Reject(error: InstallError)

  /** A non-zero exit rejects before the output is looked at; only the exact
      success sentinel starts the poll; the failure prefix rejects with the
      trimmed rest of the line; any other output rejects. */
  function ClassifyScript(code: Option<int>, output: string, errors: string): (v: ScriptVerdict)
    ensures code != Some(0) ==> v == Reject(ScriptExit(code, errors))
    ensures v == StartPolling <==> code == Some(0) && output == SuccessSentinel
    ensures code == Some(0) && StartsWith(output, FailurePrefix) ==>
              v == Reject(InstallFailed(Trim(output[|FailurePrefix|..])))
    ensures code == Some(0) && output != SuccessSentinel && !StartsWith(output, FailurePrefix) ==>
              v == Reject(UnknownOutput(output, errors))
  {
    if code != Some(0) then Reject(ScriptExit(code, errors))
    else if output == SuccessSentinel then
      assert SuccessSentinel[8] != FailurePrefix[8];
      StartPolling
    else if StartsWith(output, FailurePrefix) then Reject(InstallFailed(Trim(output[|FailurePrefix|..])))
    else Reject(UnknownOutput(output, errors))
  }

  /** One firing of the one-second interval: whether the binary exists, and
      the attempts of the `isOadinAvailable(2, 1000)` probe it then runs. */
  datatype Tick = Tick(present: bool, probe: nat -> Health.AttemptOutcome)

  /** The tick on which the poll resolves. */
  predicate TickSucceeds(t: Tick) {
    t.present && Health.Available(t.probe, 2)
  }

  /** How many ticks found no binary: only these advance the timeout counter. */
  function AbsentCount(ticks: seq<Tick>): (n: nat)
    ensures n <= |ticks|
  {
    if ticks == [] then 0 else (if ticks[0].present then 0 else 1) + AbsentCount(ticks[1..])
  }

  /** No tick of the poll finds both the binary and a healthy service. */
  predicate NoneSucceed(ticks: seq<Tick>) {
    forall k | 0 <= k < |ticks| :: !TickSucceeds(ticks[k])
  }

  /** Some tick succeeds before the 100th tick without the binary. */
  predicate ResolvesWithin(ticks: seq<Tick>, absent: nat) {
    exists k | 0 <= k < |ticks| :: TickSucceeds(ticks[k]) && absent + AbsentCount(ticks[..k]) < MaxPollRetries
  }

  /** The poll, after `absent` ticks without the binary. A tick with the
      binary resolves when the probe succeeds and otherwise changes nothing;
      a tick without it rejects when it is the 100th such tick. */
  function Poll(ticks: seq<Tick>, absent: nat): (r: Settlement)
    requires absent < MaxPollRetries
    ensures r == Unsettled <==> NoneSucceed(ticks) && absent + AbsentCount(ticks) < MaxPollRetries
    ensures r == Resolved <==> ResolvesWithin(ticks, absent)
    ensures r.Rejected? ==> r.error == Timeout
    decreases |ticks|
  {
    if ticks == [] then Unsettled
    else if ticks[0].present then
      if Health.Available(ticks[0].probe, 2) then
        assert ticks[..0] == [];
        Resolved
      else
        NoneSucceedStep(ticks);
        ResolvesWithinStep(ticks, absent);
        Poll(ticks[1..], absent)
    else if absent + 1 >= MaxPollRetries then
      ResolvesWithinStep(ticks, absent);
      Rejected(Timeout)
    else
      NoneSucceedStep(ticks);
      ResolvesWithinStep(ticks, absent);
      Poll(ticks[1..], absent + 1)
  }

  /** The count over a prefix splits off its first tick. */
  lemma AbsentCountPrefix(ticks: seq<Tick>, k: nat)
    requires 0 < k <= |ticks|
    ensures AbsentCount(ticks[..k]) == (if ticks[0].present then 0 else 1) + AbsentCount(ticks[1..][..k - 1])
  {
    assert ticks[..k][1..] == ticks[1..][..k - 1];
  }

  lemma NoneSucceedStep(ticks: seq<Tick>)
    requires ticks != []
    ensures NoneSucceed(ticks) <==> !TickSucceeds(ticks[0]) && NoneSucceed(ticks[1..])
  {
    if !TickSucceeds(ticks[0]) && NoneSucceed(ticks[1..]) {
      forall k | 0 <= k < |ticks|
        ensures !TickSucceeds(ticks[k])
      {
        if k > 0 { assert ticks[k] == ticks[1..][k - 1]; }
      }
    }
  }

  /** A tick that does not resolve passes the question on to the rest of the
      ticks, with the counter it leaves behind; when that counter reaches the
      limit nothing later can resolve. */
  lemma ResolvesWithinStep(ticks: seq<Tick>, absent: nat)
    requires ticks != [] && !TickSucceeds(ticks[0])
    ensures var a := if ticks[0].present then absent else absent + 1;
      ResolvesWithin(ticks, absent) <==> a < MaxPollRetries && ResolvesWithin(ticks[1..], a)
  {
    if ResolvesWithin(ticks, absent) {
      ResolvesWithinTail(ticks, absent);
    }
    var a := if ticks[0].present then absent else absent + 1;
    if a < MaxPollRetries && ResolvesWithin(ticks[1..], a) {
      ResolvesWithinCons(ticks, absent);
    }
  }

  lemma ResolvesWithinTail(ticks: seq<Tick>, absent: nat)
    requires ticks != [] && !TickSucceeds(ticks[0]) && ResolvesWithin(ticks, absent)
    ensures var a := if ticks[0].present then absent else absent + 1;
      a < MaxPollRetries && ResolvesWithin(ticks[1..], a)
  {
    var k :| 0 <= k < |ticks| && TickSucceeds(ticks[k]) && absent + AbsentCount(ticks[..k]) < MaxPollRetries;
    assert k > 0;
    AbsentCountPrefix(ticks, k);
    assert TickSucceeds(ticks[1..][k - 1]);
  }

  lemma ResolvesWithinCons(ticks: seq<Tick>, absent: nat)
    requires ticks != []
    requires var a := if ticks[0].present then absent else absent + 1;
      a < MaxPollRetries && ResolvesWithin(ticks[1..], a)
    ensures ResolvesWithin(ticks, absent)
  {
    var a := if ticks[0].present then absent else absent + 1;
    var k :| 0 <= k < |ticks[1..]| && TickSucceeds(ticks[1..][k]) && a + AbsentCount(ticks[1..][..k]) < MaxPollRetries;
    AbsentCountPrefix(ticks, k + 1);
    assert TickSucceeds(ticks[k + 1]);
  }

  /** Darwin: the script run, its classification, then the poll. */
  function DarwinInstall(events: seq<ScriptEvent>, ticks: seq<Tick>): (r: Settlement)
    ensures RunScript(events, "", "").Running? ==> r == Unsettled
    ensures RunScript(events, "", "").LaunchError? ==> r == Rejected(LaunchFailed(RunScript(events, "", "").message))
    ensures r == Resolved ==> RunScript(events, "", "") == Closed(Some(0), SuccessSentinel, RunScript(events, "", "").errors)
    ensures r == Rejected(Timeout) ==> RunScript(events, "", "").Closed? && RunScript(events, "", "").output == SuccessSentinel
    ensures RunScript(events, "", "").Closed? ==>
              var c := RunScript(events, "", "");
              var v := ClassifyScript(c.code, c.output, c.errors);
              r == (if v.StartPolling? then Poll(ticks, 0) else Rejected(v.error))
  {
    match RunScript(events, "", "")
    case Running(_, _) => Unsettled
    case LaunchError(m) => Rejected(LaunchFailed(m))
    case Closed(code, output, errors) =>
      match ClassifyScript(code, output, errors)
      case Reject(e) => Rejected(e)
      case StartPolling => Poll(ticks, 0)
  }

  /** `runInstallerByPlatform(installerPath)`. */
  function RunInstallerByPlatform(platform: Platform, winEvents: seq<ProcessEvent>,
                                  scriptEvents: seq<ScriptEvent>, ticks: seq<Tick>): (r: Settlement)
    ensures platform == Win32 ==> r == WinInstall(winEvents)
    ensures platform == Darwin ==> r == DarwinInstall(scriptEvents, ticks)
    ensures platform == Unsupported ==> r == Rejected(PlatformNotSupported)
  {
    match platform
    case Win32 => WinInstall(winEvents)
    case Darwin => DarwinInstall(scriptEvents, ticks)
    case Unsupported => Rejected(PlatformNotSupported)
  }

  // ---------------------------------------------------------------- lemmas

  /** If the binary never appears, the poll rejects with a timeout exactly on
      its 100th tick: not before, and it does not run forever. */
  lemma NeverAppearsTimesOut(ticks: seq<Tick>)
    requires forall k | 0 <= k < |ticks| :: !ticks[k].present
    ensures |ticks| < MaxPollRetries ==> Poll(ticks, 0) == Unsettled
    ensures |ticks| >= MaxPollRetries ==> Poll(ticks, 0) == Rejected(Timeout)
  {
    AllAbsentCount(ticks);
  }

  lemma {:induction false} AllAbsentCount(ticks: seq<Tick>)
    requires forall k | 0 <= k < |ticks| :: !ticks[k].present
    ensures AbsentCount(ticks) == |ticks|
  {
    if ticks != [] {
      AllAbsentCount(ticks[1..]);
    }
  }

  /** Ticks that find the binary while the service is down never advance the
      timeout: such a poll stays unsettled however long it runs. */
  lemma PresentButDownNeverSettles(ticks: seq<Tick>)
    requires forall k | 0 <= k < |ticks| :: ticks[k].present && !Health.Available(ticks[k].probe, 2)
    ensures Poll(ticks, 0) == Unsettled
  {
    AllPresentCount(ticks);
  }

  lemma {:induction false} AllPresentCount(ticks: seq<Tick>)
    requires forall k | 0 <= k < |ticks| :: ticks[k].present
    ensures AbsentCount(ticks) == 0
  {
    if ticks != [] {
      AllPresentCount(ticks[1..]);
    }
  }

  /** Once the script run has ended, later events change nothing. */
  lemma {:induction false} ScriptEndIsFinal(events: seq<ScriptEvent>, more: seq<ScriptEvent>, output: string, errors: string)
    requires !RunScript(events, output, errors).Running?
    ensures RunScript(events + more, output, errors) == RunScript(events, output, errors)
    decreases |events|
  {
    assert events != [];
    assert (events + more)[0] == events[0];
    assert (events + more)[1..] == events[1..] + more;
    if !EndsRun(events[0]) {
      ScriptEndIsFinal(events[1..], more, output + OutPart(events[0]), errors + ErrPart(events[0]));
    }
  }

  /** While the run is going, the events that follow are handled from the
      output and errors captured so far. */
  lemma {:induction false} ScriptRunsOn(events: seq<ScriptEvent>, more: seq<ScriptEvent>, output: string, errors: string)
    requires RunScript(events, output, errors).Running?
    ensures var c := RunScript(events, output, errors);
      RunScript(events + more, output, errors) == RunScript(more, c.output, c.errors)
    decreases |events|
  {
    if events == [] {
      assert events + more == more;
    } else {
      assert (events + more)[0] == events[0];
      assert (events + more)[1..] == events[1..] + more;
      ScriptRunsOn(events[1..], more, output + OutPart(events[0]), errors + ErrPart(events[0]));
    }
  }

  /** The first `error` or `close` decides how the run ends; a `close`
      carries the trimmed output chunks and the error chunks that came
      before it. */
  lemma ScriptEndsAtFirstEnd(events: seq<ScriptEvent>, k: nat)
    requires k < |events| && EndsRun(events[k])
    requires forall j | 0 <= j < k :: !EndsRun(events[j])
    ensures events[k].ScriptError? ==> RunScript(events, "", "") == LaunchError(events[k].message)
    ensures events[k].ScriptClose? ==>
              RunScript(events, "", "") == Closed(events[k].code, StdoutText(events[..k]), StderrText(events[..k]))
  {
    var before := events[..k];
    assert forall j | 0 <= j < |before| :: !EndsRun(before[j]);
    assert events == before + events[k..];
    ScriptRunsOn(before, events[k..], "", "");
    assert "" + StdoutText(before) == StdoutText(before);
    assert "" + StderrText(before) == StderrText(before);
  }

  /** What the AppleScript returns: the success sentinel, or the failure
      prefix with the error message and number. */
  datatype ScriptReport = InstallOk | InstallError(message: string, number: int)

  function RenderReport(r: ScriptReport): string {
    match r
    case InstallOk => SuccessSentinel
    case InstallError(m, n) => FailurePrefix + " " + m + " (错误码: " + ShowInt(n) + ")"
  }

  /** A line printed by the script and then a clean exit: the output is the
      trimmed line. */
  lemma LineThenClose(line: string, errors: string)
    ensures RunScript([Stdout(line), ScriptClose(Some(0))], "", errors) == Closed(Some(0), Trim(line), errors)
  {
    var events := [Stdout(line), ScriptClose(Some(0))];
    assert events[1..] == [ScriptClose(Some(0))];
    assert "" + Trim(line) == Trim(line);
    assert RunScript(events, "", errors) == RunScript([ScriptClose(Some(0))], Trim(line), errors);
  }

  /** A trimmed line printed by the script is captured exactly. */
  lemma ReadsTrimmedLine(text: string, errors: string)
    requires IsTrimmed(text)
    ensures RunScript([Stdout(text + "\n"), ScriptClose(Some(0))], "", errors) == Closed(Some(0), text, errors)
  {
    LineThenClose(text + "\n", errors);
    TrimUndoesPadding("", text, "\n");
    assert "" + text + "\n" == text + "\n";
  }

  /** The failure prefix followed by one space and a trimmed detail rejects
      with that detail. */
  lemma FailureDetailReadBack(detail: string, errors: string)
    requires IsTrimmed(detail)
    ensures ClassifyScript(Some(0), FailurePrefix + " " + detail, errors) == Reject(InstallFailed(detail))
  {
    var text := FailurePrefix + " " + detail;
    assert text == FailurePrefix + (" " + detail);
    StartsWithPrefix(FailurePrefix, " " + detail);
    assert text[|FailurePrefix|..] == " " + detail;
    TrimUndoesPadding(" ", detail, "");
    assert " " + detail + "" == " " + detail;
    assert |text| > |SuccessSentinel|;
  }

  /** The detail the script reports after the prefix has no surrounding
      white space. */
  lemma DetailIsTrimmed(message: string, number: int)
    requires message != [] && !IsSpace(message[0])
    ensures IsTrimmed(message + " (错误码: " + ShowInt(number) + ")")
  {
    var detail := message + " (错误码: " + ShowInt(number) + ")";
    assert detail[0] == message[0];
    assert detail[|detail| - 1] == ')';
  }

  /** A failure report, as printed, is read back as the report's detail. */
  lemma FailureReadBack(detail: string, errors: string)
    requires detail != [] && IsTrimmed(detail)
    ensures var v := RunScript([Stdout(FailurePrefix + " " + detail + "\n"), ScriptClose(Some(0))], "", errors);
      v.Closed? && ClassifyScript(v.code, v.output, v.errors) == Reject(InstallFailed(detail))
  {
    var text := FailurePrefix + " " + detail;
    assert IsTrimmed(text) by {
      assert text[0] == 'I';
      assert text[|text| - 1] == detail[|detail| - 1];
    }
    ReadsTrimmedLine(text, errors);
    FailureDetailReadBack(detail, errors);
  }

  /** The driver reads back what the script reports, as `osascript` prints it
      (followed by a newline) before exiting with code 0: success starts the
      poll, and a failure rejects with the message and number the script put
      after the prefix. */
  lemma ReportReadBack(r: ScriptReport, errors: string)
    requires r.InstallError? ==> r.message != [] && !IsSpace(r.message[0])
    ensures var v := RunScript([Stdout(RenderReport(r) + "\n"), ScriptClose(Some(0))], "", errors);
      && v.Closed?
      && (r.InstallOk? ==> ClassifyScript(v.code, v.output, v.errors) == StartPolling)
      && (r.InstallError? ==>
            ClassifyScript(v.code, v.output, v.errors) == Reject(InstallFailed(r.message + " (错误码: " + ShowInt(r.number) + ")")))
  {
    if r.InstallOk? {
      ReadsTrimmedLine(SuccessSentinel, errors);
    } else {
      var detail := r.message + " (错误码: " + ShowInt(r.number) + ")";
      assert RenderReport(r) == FailurePrefix + " " + detail;
      DetailIsTrimmed(r.message, r.number);
      FailureReadBack(detail, errors);
    }
  }
}

=== FILE: JsText.dfy ===
/** The few JavaScript string operations the core relies on: `trim`,
    `startsWith`, `includes`, `toLowerCase`, and the `\d` / `\s` classes of
    its regular expressions. */
module JsText {

  /** The code points JavaScript counts as white space or line terminators:
      what `String.prototype.trim` removes and what `\s` matches. */
  predicate IsSpace(c: char) {
    || c == ' ' || c == '\t' || c == '\n' || c == '\U{000B}' || c == '\U{000C}' || c == '\r'
    || c == '\U{00A0}' || c == '\U{1680}' || ('\U{2000}' <= c <= '\U{200A}')
    || c == '\U{2028}' || c == '\U{2029}' || c == '\U{202F}' || c == '\U{205F}'
    || c == '\U{3000}' || c == '\U{FEFF}'
  }

  /** The regular-expression class `\d`: ASCII digits only. */
  predicate IsDigit(c: char) {
    '0' <= c <= '9'
  }

  predicate AllSpace(s: string) {
    forall i | 0 <= i < |s| :: IsSpace(s[i])
  }

  predicate AllDigits(s: string) {
    forall i | 0 <= i < |s| :: IsDigit(s[i])
  }

  /** A string `trim` leaves alone: it neither starts nor ends with white space. */
  predicate IsTrimmed(s: string) {
    s == [] || (!IsSpace(s[0]) && !IsSpace(s[|s| - 1]))
  }

  /** Drops the leading white space. */
  function TrimStart(s: string): (r: string)
    ensures |r| <= |s|
    ensures r == [] || !IsSpace(r[0])
  {
    if s != [] && IsSpace(s[0]) then TrimStart(s[1..]) else s
  }

  /** Drops the trailing white space. */
  function TrimEnd(s: string): (r: string)
    ensures |r| <= |s| && (r != [] ==> r[0] == s[0])
    ensures r == [] || !IsSpace(r[|r| - 1])
  {
    if s != [] && IsSpace(s[|s| - 1]) then TrimEnd(s[..|s| - 1]) else s
  }

  /** `String.prototype.trim` (and lodash `_.trim` without a character set). */
  function Trim(s: string): (r: string)
    ensures IsTrimmed(r)
    ensures |r| <= |s|
  {
    TrimEnd(TrimStart(s))
  }

  /** `s.startsWith(p)`. */
  predicate StartsWith(s: string, p: string) {
    |p| <= |s| && s[..|p|] == p
  }

  /** `s.includes(p)`: `p` occurs somewhere in `s`. */
  predicate Contains(s: string, p: string)
    decreases |s|
  {
    StartsWith(s, p) || (s != [] && Contains(s[1..], p))
  }

  /** `p` occurs in `s` at position `i`. */
  predicate OccursAt(s: string, p: string, i: nat) {
    i + |p| <= |s| && s[i..i + |p|] == p
  }

  /** `toLowerCase` on the ASCII letters; every other character is kept. */
  function LowerChar(c: char): char {
    if 'A' <= c <= 'Z' then (c as int + 32) as char else c
  }

  function Lower(s: string): (r: string)
    ensures |r| == |s|
  {
    seq(|s|, i requires 0 <= i < |s| => LowerChar(s[i]))
  }

  /** Length of the longest prefix of `s` made of digits: what a greedy `\d+`
      or `\d*` consumes. */
  function DigitRun(s: string): (n: nat)
    ensures n <= |s|
    ensures AllDigits(s[..n])
    ensures n == |s| || !IsDigit(s[n])
  {
    if s != [] && IsDigit(s[0]) then 1 + DigitRun(s[1..]) else 0
  }

  /** Length of the longest prefix of `s` made of white space: what a greedy
      `\s*` consumes. */
  function SpaceRun(s: string): (n: nat)
    ensures n <= |s|
    ensures AllSpace(s[..n])
    ensures n == |s| || !IsSpace(s[n])
  {
    if s != [] && IsSpace(s[0]) then 1 + SpaceRun(s[1..]) else 0
  }

  /** The decimal value of a digit string (`parseInt` without rounding). */
  function DigitsValue(s: string): nat
    requires AllDigits(s)
  {
    if s == [] then 0 else DigitsValue(s[..|s| - 1]) * 10 + (s[|s| - 1] as int - '0' as int)
  }

  /** The decimal rendering of a natural number, without leading zeros. */
  function ShowNat(n: nat): (r: string)
    ensures |r| > 0 && AllDigits(r)
    ensures DigitsValue(r) == n
  {
    var d := [('0' as int + n % 10) as char];
    if n < 10 then d else ShowNat(n / 10) + d
  }

  /** The decimal rendering of an integer, with a leading `-` when negative. */
  function ShowInt(n: int): (r: string)
    ensures |r| > 0
  {
    if n < 0 then "-" + ShowNat(-n) else ShowNat(n)
  }

  // ---------------------------------------------------------------- lemmas

  lemma {:induction false} TrimStartSkipsSpace(w: string, s: string)
    requires AllSpace(w)
    requires s == [] || !IsSpace(s[0])
    ensures TrimStart(w + s) == s
    decreases |w|
  {
    if w != [] {
      assert (w + s)[1..] == w[1..] + s;
      TrimStartSkipsSpace(w[1..], s);
    } else {
      assert w + s == s;
    }
  }

  lemma {:induction false} TrimEndSkipsSpace(s: string, w: string)
    requires AllSpace(w)
    requires s == [] || !IsSpace(s[|s| - 1])
    ensures TrimEnd(s + w) == s
    decreases |w|
  {
    if w != [] {
      var w' := w[..|w| - 1];
      assert (s + w)[..|s + w| - 1] == s + w';
      TrimEndSkipsSpace(s, w');
    } else {
      assert s + w == s;
    }
  }

  /** Padding a trimmed string with white space on both sides and trimming
      it again gives the string back. */
  lemma TrimUndoesPadding(w1: string, s: string, w2: string)
    requires AllSpace(w1) && AllSpace(w2) && IsTrimmed(s)
    ensures Trim(w1 + s + w2) == s
  {
    if s == [] {
      assert w1 + s + w2 == w1 + w2;
      assert AllSpace(w1 + w2);
      TrimStartSkipsSpace(w1 + w2, []);
      assert w1 + w2 + [] == w1 + w2;
    } else {
      assert w1 + s + w2 == w1 + (s + w2);
      TrimStartSkipsSpace(w1, s + w2);
      TrimEndSkipsSpace(s, w2);
    }
  }

  /** `includes` finds exactly the positions where the text occurs. */
  lemma {:induction false} ContainsIffOccurs(s: string, p: string)
    ensures Contains(s, p) <==> exists i | 0 <= i <= |s| :: OccursAt(s, p, i)
    decreases |s|
  {
    if StartsWith(s, p) {
      assert OccursAt(s, p, 0);
    } else if s == [] {
      assert forall i | 0 <= i <= |s| :: !OccursAt(s, p, i);
    } else {
      ContainsIffOccurs(s[1..], p);
      if Contains(s[1..], p) {
        var i :| 0 <= i <= |s[1..]| && OccursAt(s[1..], p, i);
        assert s[1..][i..i + |p|] == s[i + 1..i + 1 + |p|];
        assert OccursAt(s, p, i + 1);
      }
      if exists i | 0 <= i <= |s| :: OccursAt(s, p, i) {
        var i :| 0 <= i <= |s| && OccursAt(s, p, i);
        assert i != 0;
        assert s[1..][i - 1..i - 1 + |p|] == s[i..i + |p|];
        assert OccursAt(s[1..], p, i - 1);
      }
    }
  }

  lemma StartsWithPrefix(p: string, s: string)
    ensures StartsWith(p + s, p)
  {
    assert (p + s)[..|p|] == p;
  }
}

=== FILE: Lifecycle.dfy ===
/** The lifecycle orchestration of the `Oadin` class: where the engine and
    its installer live, whether the engine is installed and current,
    downloading and installing it, and the one-call `OadinInit`. Each
    operation reports its outcome and the steps it takes. */
module Lifecycle {
  import opened Base
  import opened JsText
  import Health
  import Attempts
  import Download
  import Installer
  import Service
  import Version
  import Envelope

  const MacOadinPath: string := "/usr/local/bin/oadin"
  const WinInstallerUrl: string := "https://oss-aipc.dcclouds.com/oadin/releases/windows/oadin-installer-latest.exe"
  const MacInstallerUrl: string := "https://oss-aipc.dcclouds.com/oadin/releases/macos/oadin-installer-latest.pkg"
  const WinInstallerName: string := "oadin-installer-latest.exe"
  const MacInstallerName: string := "oadin-installer-latest.pkg"

  /** The result of an operation, with the steps it took in order. */
  datatype Run = Run(outcome: Outcome, steps: seq<Step>)

  /** `getOadinExecutablePath()`: the engine binary under the user's home on
      win32 (joined with the platform's separator), the fixed system path on
      darwin, `null` elsewhere. */
  function GetOadinExecutablePath(platform: Platform, home: string): (p: Option<string>)
    ensures p.None? <==> platform == Unsupported
    ensures platform == Win32 ==> p.Some? && StartsWith(p.value, home)
    ensures platform == Darwin ==> p == Some(MacOadinPath)
  {
    match platform
    case Win32 => Some(home + "\\Oadin\\oadin.exe")
    case Darwin => Some(MacOadinPath)
    case Unsupported => None
  }

  /** `getOadinInstallerPath()`: the download URL of the platform's
      installer, `null` on an unsupported platform. */
  function GetOadinInstallerPath(platform: Platform): (u: Option<string>)
    ensures u.None? <==> platform == Unsupported
    ensures platform == Win32 ==> u.Some? && EndsWith(u.value, WinInstallerName)
    ensures platform == Darwin ==> u.Some? && EndsWith(u.value, MacInstallerName)
  {
    match platform
    case Win32 =>
      assert WinInstallerUrl[|WinInstallerUrl| - |WinInstallerName|..] == WinInstallerName;
      Some(WinInstallerUrl)
    case Darwin =>
      assert MacInstallerUrl[|MacInstallerUrl| - |MacInstallerName|..] == MacInstallerName;
      Some(MacInstallerUrl)
    case Unsupported => None
  }

  predicate EndsWith(s: string, t: string) {
    |t| <= |s| && s[|s| - |t|..] == t
  }

  /** `isOadinExisted()`. `present` says whether the binary exists (the path
      is `null` on an unsupported platform, which never exists);
      `versionRun` is the output of `oadin version`. An outdated service is
      stopped and probed once more; neither result is used, and the answer is
      false. */
  function IsOadinExisted(platform: Platform, present: bool, versionRun: Option<string>): (r: Run)
    ensures r.outcome == Returned(true) <==>
              platform != Unsupported && present && Version.IsOadinLatest(platform, versionRun) == Returned(true)
    ensures r.outcome.Thrown? <==>
              platform != Unsupported && present && Version.IsOadinLatest(platform, versionRun).Thrown?
    ensures !r.outcome.Pending?
    ensures |r.steps| >= 1 && r.steps[0] == CheckExistence
    ensures StopService in r.steps <==>
              platform != Unsupported && present && Version.IsOadinLatest(platform, versionRun) == Returned(false)
  {
    var existed := GetOadinExecutablePath(platform, "").Some? && present;
    if !existed then Run(Returned(false), [CheckExistence])
    else
      var latest := Version.IsOadinLatest(platform, versionRun);
      if latest.Thrown? then Run(latest, [CheckExistence, QueryVersion])
      else if latest == Returned(true) then Run(latest, [CheckExistence, QueryVersion])
      else Run(Returned(false), [CheckExistence, QueryVersion, StopService, Probe(2, 1000)])
  }

  /** `downloadOadin(retries)`: nothing on an unsupported platform; otherwise
      the installer is downloaded with up to `retries` attempts and, once it
      is on disk, run; the answer is whether the installer's promise
      resolved. */
  function DownloadOadin(platform: Platform, fetched: nat -> bool, retries: int,
                         winEvents: seq<Installer.ProcessEvent>, scriptEvents: seq<Installer.ScriptEvent>,
                         ticks: seq<Installer.Tick>): (r: Run)
    ensures platform == Unsupported ==> r == Run(Returned(false), [])
    ensures r.outcome == Returned(true) <==>
              platform != Unsupported && Download.Downloaded(fetched, retries) &&
              Installer.RunInstallerByPlatform(platform, winEvents, scriptEvents, ticks) == Installer.Resolved
    ensures r.outcome.Pending? <==>
              platform != Unsupported && Download.Downloaded(fetched, retries) &&
              Installer.RunInstallerByPlatform(platform, winEvents, scriptEvents, ticks) == Installer.Unsettled
    ensures !r.outcome.Thrown?
    ensures RunInstaller in r.steps <==> platform != Unsupported && Download.Downloaded(fetched, retries)
  {
    if platform == Unsupported then Run(Returned(false), [])
    else if !Download.Downloaded(fetched, retries) then Run(Returned(false), [DownloadInstaller])
    else
      var steps := [DownloadInstaller, RunInstaller];
      match Installer.RunInstallerByPlatform(platform, winEvents, scriptEvents, ticks)
      case Resolved => Run(Returned(true), steps)
      case Rejected(_) => Run(Returned(false), steps)
      case Unsettled => Run(Pending, steps)
  }

  /** What `startOadin` is given to work with. */
  datatype StartInputs = StartInputs(
    running: nat -> Health.AttemptOutcome,
    win: Service.WinLaunch,
    ready: nat -> Health.AttemptOutcome,
    spawnThrows: bool,
    events: seq<Service.DaemonEvent>)

  function Start(platform: Platform, s: StartInputs): Service.StartResult {
    Service.StartOadin(platform, s.running, s.win, s.ready, s.spawnThrows, s.events)
  }

  /** `OadinInit(path)`. A service that answers the first probe (five
      attempts) is left alone. Otherwise the existence check is started but
      not awaited: its promise is always truthy, so the download branch is
      never taken. Its synchronous part still runs before the service is
      started: the existence test and, when the binary is there on a
      supported platform, the launch of `oadin version` by `isOadinLatest`;
      `present` and `versionRun` are what that check would find. `imported`
      is what the configuration import answers: an envelope object, which is
      always truthy, so once the service has started the answer is true. */
  function OadinInit(platform: Platform, available: nat -> Health.AttemptOutcome,
                     present: bool, versionRun: Option<string>, start: StartInputs,
                     imported: Envelope.Envelope): (r: Run)
    ensures |r.steps| >= 1 && r.steps[0] == Probe(5, 1000)
    ensures Health.Available(available, 5) ==> r == Run(Returned(true), [Probe(5, 1000)])
    ensures !Health.Available(available, 5) ==>
              r.outcome == Start(platform, start).outcome &&
              |r.steps| >= 3 && r.steps[1] == CheckExistence &&
              (r.steps[2] == QueryVersion <==> platform != Unsupported && present)
    ensures DownloadInstaller !in r.steps && RunInstaller !in r.steps
  {
    if Health.Available(available, 5) then Run(Returned(true), [Probe(5, 1000)])
    else
      var started := Start(platform, start);
      var check := if platform != Unsupported && present then [CheckExistence, QueryVersion] else [CheckExistence];
      var steps := [Probe(5, 1000)] + check + started.steps;
      match started.outcome
      case Returned(true) =>
        Run(Returned(Envelope.Truthy(Envelope.AsJs(imported))), steps + [ImportConfig])
      case other => Run(other, steps)
  }

  // ---------------------------------------------------------------- lemmas

  /** `OadinInit` never downloads or installs anything: whatever the
      existence check would find, it answers what starting the service
      answers and launches the service just the same; only the version
      query launched on the way depends on it. */
  lemma InitIgnoresInstallation(platform: Platform, available: nat -> Health.AttemptOutcome,
                                p1: bool, v1: Option<string>, p2: bool, v2: Option<string>,
                                start: StartInputs, imported: Envelope.Envelope)
    ensures OadinInit(platform, available, p1, v1, start, imported).outcome
         == OadinInit(platform, available, p2, v2, start, imported).outcome
    ensures LaunchService in OadinInit(platform, available, p1, v1, start, imported).steps
        <==> LaunchService in OadinInit(platform, available, p2, v2, start, imported).steps
  {
  }

  /** `OadinInit` answers the same whatever the configuration import
      answers, even the 400 of a file that cannot be read: the import's
      envelope is an object, and every object is truthy. */
  lemma InitIgnoresImportResult(platform: Platform, available: nat -> Health.AttemptOutcome,
                                present: bool, versionRun: Option<string>, start: StartInputs,
                                a: Envelope.Envelope, b: Envelope.Envelope)
    ensures OadinInit(platform, available, present, versionRun, start, a).outcome
         == OadinInit(platform, available, present, versionRun, start, b).outcome
  {
  }

  /** On an unsupported platform, when the service is not already running,
      `OadinInit` never settles. */
  lemma InitHangsOnUnsupportedPlatform(available: nat -> Health.AttemptOutcome, present: bool,
                                       versionRun: Option<string>, start: StartInputs,
                                       imported: Envelope.Envelope)
    requires !Health.Available(available, 5) && !Health.Available(start.running, 2)
    ensures OadinInit(Unsupported, available, present, versionRun, start, imported).outcome == Pending
  {
  }

  /** A running service is never relaunched by `OadinInit`. */
  lemma InitLeavesRunningServiceAlone(platform: Platform, available: nat -> Health.AttemptOutcome,
                                      present: bool, versionRun: Option<string>, start: StartInputs,
                                      imported: Envelope.Envelope)
    requires Health.Available(available, 5)
    ensures var r := OadinInit(platform, available, present, versionRun, start, imported);
      r.outcome == Returned(true) && forall k | 0 <= k < |r.steps| :: !IsLaunch(r.steps[k])
  {
  }

  /** An outdated engine is reported as not installed even when it could
      not be stopped and still answers. */
  lemma OutdatedIsNeverReported(platform: Platform, versionRun: Option<string>)
    requires platform != Unsupported
    requires Version.IsOadinLatest(platform, versionRun) == Returned(false)
    ensures IsOadinExisted(platform, true, versionRun).outcome == Returned(false)
    ensures StopService in IsOadinExisted(platform, true, versionRun).steps
  {
  }

  /** The download is retried up to `retries` times; more retries never turn
      a successful installation into a failed one. */
  lemma MoreRetriesKeepInstallation(platform: Platform, fetched: nat -> bool, short: int, long: int,
                                    winEvents: seq<Installer.ProcessEvent>,
                                    scriptEvents: seq<Installer.ScriptEvent>, ticks: seq<Installer.Tick>)
    requires short <= long
    requires DownloadOadin(platform, fetched, short, winEvents, scriptEvents, ticks).outcome == Returned(true)
    ensures DownloadOadin(platform, fetched, long, winEvents, scriptEvents, ticks).outcome == Returned(true)
  {
    Attempts.MoreAttemptsKeepSuccess(fetched, short, long, 0);
  }
}

=== FILE: Service.dfy ===
/** Starting and stopping the engine's background service (`startOadin`,
    `stopOadin` of the `Oadin` class). */
module Service {
  import opened Base
  import opened JsText
  import Health

  const SuccessPhrase: string := "server start successfully"
  const EngineFailedPhrase: string := "Install model engine failed"

  // ------------------------------------------------------------ win32

  /** What `execFile` hands the callback of `cmd.exe /c start-oadin.bat`. */
  datatype WinLaunch = WinLaunch(failed: bool, stdout: string, stderr: string)

  /** The launch script counts as failed exactly when `execFile` reports an
      error or when the standard output followed by the standard error,
      lowered, has `error` at some position (also one that straddles the
      two); in particular `error` on either stream fails it, and a quiet,
      clean launch does not fail. */
  function WinLaunchFailed(w: WinLaunch): (f: bool)
    ensures f <==> w.failed || exists i | 0 <= i <= |w.stdout + w.stderr| :: OccursAt(Lower(w.stdout + w.stderr), "error", i)
    ensures Contains(Lower(w.stdout), "error") || Contains(Lower(w.stderr), "error") ==> f
    ensures !w.failed && w.stdout == [] && w.stderr == [] ==> !f
  {
    var out := w.stdout + w.stderr;
    LowerAppend(w.stdout, w.stderr);
    ContainsEither(Lower(w.stdout), Lower(w.stderr), "error");
    ContainsIffOccurs(Lower(out), "error");
    w.failed || Contains(Lower(out), "error")
  }

  // ----------------------------------------------------------- darwin

  /** What the detached `oadin server start -d` child reports. */
  datatype DaemonEvent =
    | Out(chunk: string)          // a chunk on standard output
    | Err(chunk: string)          // a chunk on standard error
    | Failed(message: string)     // the `error` event: the child could not start
    | Exit(code: Option<int>)     // the `close` event (`null` when killed)

  /** The verdict a single event gives, given the standard error gathered
      before it; `None` leaves the promise as it is. Only the success phrase
      on standard output resolves true; a standard-error chunk never
      decides; a `close` leaves the promise alone exactly when the code is 0
      and no engine failure was reported. */
  function Verdict(e: DaemonEvent, stderr: string): (v: Option<bool>)
    ensures v == Some(true) <==> e.Out? && Contains(e.chunk, SuccessPhrase)
    ensures e.Err? ==> v.None?
    ensures e.Failed? ==> v == Some(false)
    ensures e.Exit? ==> (v.None? <==> e.code == Some(0) && !Contains(stderr, EngineFailedPhrase))
  {
    match e
    case Out(c) => if Contains(c, SuccessPhrase) then Some(true) else None
    case Err(_) => None
    case Failed(_) => Some(false)
    case Exit(code) =>
      if Contains(stderr, EngineFailedPhrase) then Some(false)
      else if code == Some(0) then None
      else Some(false)
  }

  /** What a standard-error chunk adds to the gathered text: the trimmed
      chunk and a newline. */
  function ErrLine(e: DaemonEvent): string {
    if e.Err? then Trim(e.chunk) + "\n" else ""
  }

  /** The standard error gathered over a run of events. */
  function ErrText(events: seq<DaemonEvent>): string {
    if events == [] then "" else ErrLine(events[0]) + ErrText(events[1..])
  }

  /** The darwin promise: events are handled in order, the standard error is
      gathered as it arrives, and the first verdict settles the promise. */
  function DaemonStart(events: seq<DaemonEvent>, stderr: string): (r: Outcome)
    ensures !r.Thrown?
    decreases |events|
  {
    if events == [] then Pending
    else match Verdict(events[0], stderr)
      case Some(b) => Returned(b)
      case None => DaemonStart(events[1..], stderr + ErrLine(events[0]))
  }

  /** Which verdict, if any, event `k` gives. */
  function VerdictAt(events: seq<DaemonEvent>, k: nat, stderr: string): Option<bool>
    requires k < |events|
  {
    Verdict(events[k], stderr + ErrText(events[..k]))
  }

  /** The result of `startOadin`, with the steps it takes. */
  datatype StartResult = StartResult(outcome: Outcome, steps: seq<Step>)

  /** `startOadin()`. `running` answers the first probe (two attempts, 1 s);
      `ready` answers the readiness probe after a win32 launch (five
      attempts, 1.5 s); `spawnThrows` says whether spawning the darwin child
      throws at once. The platform test compares against a misspelling of
      `unsupported`, so on an unsupported platform nothing is launched and the
      promise never settles. */
  function StartOadin(platform: Platform, running: nat -> Health.AttemptOutcome, win: WinLaunch,
                      ready: nat -> Health.AttemptOutcome, spawnThrows: bool,
                      events: seq<DaemonEvent>): (r: StartResult)
    ensures |r.steps| >= 1 && r.steps[0] == Probe(2, 1000)
    ensures Health.Available(running, 2) ==> r == StartResult(Returned(true), [Probe(2, 1000)])
    ensures !Health.Available(running, 2) && platform == Unsupported ==> r.outcome == Pending
    ensures !Health.Available(running, 2) && platform == Win32 ==>
              r.outcome == Returned(!WinLaunchFailed(win) && Health.Available(ready, 5))
    ensures !Health.Available(running, 2) && platform == Darwin ==>
              r.outcome == (if spawnThrows then Returned(false) else DaemonStart(events, ""))
    ensures !r.outcome.Thrown?
  {
    var probe := [Probe(2, 1000)];
    if Health.Available(running, 2) then StartResult(Returned(true), probe)
    else match platform
      case Unsupported => StartResult(Pending, probe)
      case Win32 =>
        if WinLaunchFailed(win) then StartResult(Returned(false), probe + [LaunchService])
        else StartResult(Returned(Health.Available(ready, 5)), probe + [LaunchService, Probe(5, 1500)])
      case Darwin =>
        StartResult(if spawnThrows then Returned(false) else DaemonStart(events, ""), probe + [LaunchService])
  }

  /** `stopOadin()`: `oadin server stop` through `execFile`; its result is
      whether the command ran without error. */
  function StopOadin(platform: Platform, execFailed: bool): (r: Outcome)
    ensures r == Returned(true) <==> platform != Unsupported && !execFailed
    ensures r.Returned?
  {
    if platform == Unsupported then Returned(false) else Returned(!execFailed)
  }

  // ---------------------------------------------------------------- lemmas

  lemma ErrTextStep(events: seq<DaemonEvent>, k: nat)
    requires 0 < k <= |events|
    ensures ErrText(events[..k]) == ErrLine(events[0]) + ErrText(events[1..][..k - 1])
  {
    assert events[..k][1..] == events[1..][..k - 1];
  }

  /** No event gives a verdict. */
  predicate NoVerdict(events: seq<DaemonEvent>, stderr: string) {
    forall k | 0 <= k < |events| :: VerdictAt(events, k, stderr) == None
  }

  /** Event `k` is the first to give a verdict, and that verdict is `b`. */
  predicate FirstVerdictIs(events: seq<DaemonEvent>, stderr: string, k: nat, b: bool)
    requires k < |events|
  {
    VerdictAt(events, k, stderr) == Some(b) && forall j | 0 <= j < k :: VerdictAt(events, j, stderr) == None
  }

  lemma VerdictHead(events: seq<DaemonEvent>, stderr: string)
    requires events != []
    ensures VerdictAt(events, 0, stderr) == Verdict(events[0], stderr)
  {
    assert events[..0] == [];
    assert stderr + ErrText(events[..0]) == stderr;
  }

  lemma VerdictShift(events: seq<DaemonEvent>, stderr: string, k: nat)
    requires 0 < k < |events|
    ensures VerdictAt(events, k, stderr) == VerdictAt(events[1..], k - 1, stderr + ErrLine(events[0]))
  {
    ErrTextStep(events, k);
    var t := ErrText(events[1..][..k - 1]);
    assert stderr + (ErrLine(events[0]) + t) == (stderr + ErrLine(events[0])) + t;
  }

  lemma NoVerdictStep(events: seq<DaemonEvent>, stderr: string)
    requires events != []
    ensures NoVerdict(events, stderr) <==>
              Verdict(events[0], stderr) == None && NoVerdict(events[1..], stderr + ErrLine(events[0]))
  {
    VerdictHead(events, stderr);
    var s1 := stderr + ErrLine(events[0]);
    if NoVerdict(events, stderr) {
      forall k | 0 <= k < |events[1..]|
        ensures VerdictAt(events[1..], k, s1) == None
      {
        VerdictShift(events, stderr, k + 1);
      }
    }
    if Verdict(events[0], stderr) == None && NoVerdict(events[1..], s1) {
      forall k | 0 < k < |events|
        ensures VerdictAt(events, k, stderr) == None
      {
        VerdictShift(events, stderr, k);
      }
    }
  }

  lemma FirstVerdictStep(events: seq<DaemonEvent>, stderr: string, k: nat, b: bool)
    requires 0 < k < |events| && Verdict(events[0], stderr) == None
    ensures FirstVerdictIs(events, stderr, k, b) <==> FirstVerdictIs(events[1..], stderr + ErrLine(events[0]), k - 1, b)
  {
    VerdictHead(events, stderr);
    var s1 := stderr + ErrLine(events[0]);
    VerdictShift(events, stderr, k);
    forall j | 0 < j < k
      ensures VerdictAt(events, j, stderr) == VerdictAt(events[1..], j - 1, s1)
    {
      VerdictShift(events, stderr, j);
    }
    if FirstVerdictIs(events[1..], s1, k - 1, b) {
      forall j | 0 <= j < k
        ensures VerdictAt(events, j, stderr) == None
      {
        if j > 0 { assert VerdictAt(events[1..], j - 1, s1) == None; }
      }
    }
    if FirstVerdictIs(events, stderr, k, b) {
      forall j | 0 <= j < k - 1
        ensures VerdictAt(events[1..], j, s1) == None
      {
        assert VerdictAt(events, j + 1, stderr) == None;
      }
    }
  }

  /** The darwin promise stays pending exactly when no event gives a verdict. */
  lemma {:induction false} PendingIffNoVerdict(events: seq<DaemonEvent>, stderr: string)
    ensures DaemonStart(events, stderr) == Pending <==> NoVerdict(events, stderr)
    decreases |events|
  {
    if events != [] {
      NoVerdictStep(events, stderr);
      if Verdict(events[0], stderr) == None {
        PendingIffNoVerdict(events[1..], stderr + ErrLine(events[0]));
      }
    }
  }

  /** The first event that gives a verdict settles the darwin promise with
      it, judged on the standard error gathered before that event. */
  lemma {:induction false} FirstVerdictSettles(events: seq<DaemonEvent>, stderr: string, k: nat, b: bool)
    requires k < |events| && FirstVerdictIs(events, stderr, k, b)
    ensures DaemonStart(events, stderr) == Returned(b)
    decreases k
  {
    VerdictHead(events, stderr);
    if k > 0 {
      assert VerdictAt(events, 0, stderr) == None;
      FirstVerdictStep(events, stderr, k, b);
      FirstVerdictSettles(events[1..], stderr + ErrLine(events[0]), k - 1, b);
    }
  }

  /** A settled darwin promise took the verdict of the first event that gave
      one. */
  lemma {:induction false} SettledByFirstVerdict(events: seq<DaemonEvent>, stderr: string, b: bool)
    requires DaemonStart(events, stderr) == Returned(b)
    ensures exists k | 0 <= k < |events| :: FirstVerdictIs(events, stderr, k, b)
    decreases |events|
  {
    assert events != [];
    VerdictHead(events, stderr);
    var v := Verdict(events[0], stderr);
    if v == Some(b) {
      assert FirstVerdictIs(events, stderr, 0, b);
    } else {
      assert v == None;
      var s1 := stderr + ErrLine(events[0]);
      assert DaemonStart(events[1..], s1) == Returned(b);
      SettledByFirstVerdict(events[1..], s1, b);
      var k :| 0 <= k < |events[1..]| && FirstVerdictIs(events[1..], s1, k, b);
      FirstVerdictStep(events, stderr, k + 1, b);
      assert FirstVerdictIs(events, stderr, k + 1, b);
    }
  }

  /** Once the darwin promise has settled, later events change nothing. */
  lemma {:induction false} SettledIsFinal(events: seq<DaemonEvent>, more: seq<DaemonEvent>, stderr: string)
    requires DaemonStart(events, stderr) != Pending
    ensures DaemonStart(events + more, stderr) == DaemonStart(events, stderr)
    decreases |events|
  {
    assert events != [];
    assert (events + more)[0] == events[0];
    assert (events + more)[1..] == events[1..] + more;
    if Verdict(events[0], stderr).None? {
      SettledIsFinal(events[1..], more, stderr + ErrLine(events[0]));
    }
  }

  /** A first standard-error chunk gives no verdict; it only adds its line. */
  lemma ErrChunkFirst(events: seq<DaemonEvent>)
    requires events != [] && events[0].Err?
    ensures DaemonStart(events, "") == DaemonStart(events[1..], ErrLine(events[0]))
  {
    assert "" + ErrLine(events[0]) == ErrLine(events[0]);
  }

  /** The line a chunk adds still reports what the trimmed chunk reports. */
  lemma ErrLineKeeps(chunk: string, p: string)
    requires Contains(Trim(chunk), p)
    ensures Contains(ErrLine(Err(chunk)), p)
  {
    ContainsExtends(Trim(chunk), "\n", p);
  }

  /** A `close` after standard error that reports an engine-installation
      failure resolves false, whatever the exit code. */
  lemma ExitAfterEngineFailure(events: seq<DaemonEvent>, stderr: string)
    requires events != [] && events[0].Exit?
    requires Contains(stderr, EngineFailedPhrase)
    ensures DaemonStart(events, stderr) == Returned(false)
  {
  }

  /** A reported engine-installation failure on standard error makes the
      `close` that follows resolve false, whatever the exit code. */
  lemma EngineFailureBeatsExitCode(chunk: string, code: Option<int>)
    requires Contains(Trim(chunk), EngineFailedPhrase)
    ensures DaemonStart([Err(chunk), Exit(code)], "") == Returned(false)
  {
    var events := [Err(chunk), Exit(code)];
    ErrChunkFirst(events);
    ErrLineKeeps(chunk, EngineFailedPhrase);
    ExitAfterEngineFailure(events[1..], ErrLine(events[0]));
  }

  lemma {:induction false} ContainsExtends(s: string, t: string, p: string)
    requires Contains(s, p)
    ensures Contains(s + t, p)
    decreases |s|
  {
    if StartsWith(s, p) {
      assert (s + t)[..|p|] == s[..|p|];
    } else {
      assert (s + t)[1..] == s[1..] + t;
      ContainsExtends(s[1..], t, p);
    }
  }

  /** An occurrence in the second part is an occurrence in the whole. */
  lemma {:induction false} ContainsAfter(s: string, t: string, p: string)
    requires Contains(t, p)
    ensures Contains(s + t, p)
    decreases |s|
  {
    if s == [] {
      assert s + t == t;
    } else {
      assert (s + t)[1..] == s[1..] + t;
      ContainsAfter(s[1..], t, p);
    }
  }

  /** An occurrence in either part is an occurrence in the whole. */
  lemma ContainsEither(s: string, t: string, p: string)
    ensures Contains(s, p) || Contains(t, p) ==> Contains(s + t, p)
  {
    if Contains(s, p) {
      ContainsExtends(s, t, p);
    } else if Contains(t, p) {
      ContainsAfter(s, t, p);
    }
  }

  /** The output is searched after joining the two streams: `error` split
      between the end of standard output and the start of standard error
      fails the launch. */
  lemma ErrorAcrossStreams(out: string, err: string)
    requires Lower(out + err) == "error" && 0 < |out| < 5
    ensures WinLaunchFailed(WinLaunch(false, out, err))
  {
    assert OccursAt(Lower(out + err), "error", 0);
  }

  /** `toLowerCase` works character by character. */
  lemma LowerAppend(s: string, t: string)
    ensures Lower(s + t) == Lower(s) + Lower(t)
  {
  }

  /** A clean exit without the success phrase on standard output leaves the
      darwin promise pending: the service is not probed again. */
  lemma CleanExitStaysPending(chunk: string)
    requires !Contains(chunk, SuccessPhrase)
    ensures DaemonStart([Out(chunk), Exit(Some(0))], "") == Pending
  {
    assert [Out(chunk), Exit(Some(0))][1..] == [Exit(Some(0))];
    assert [Exit(Some(0))][1..] == [];
    assert "" + ErrLine(Out(chunk)) == "";
    assert !Contains("", EngineFailedPhrase);
  }

  /** A service that already answers is never launched again. */
  lemma RunningServiceIsNotLaunched(platform: Platform, running: nat -> Health.AttemptOutcome, win: WinLaunch,
                                    ready: nat -> Health.AttemptOutcome, spawnThrows: bool,
                                    events: seq<DaemonEvent>)
    requires Health.Available(running, 2)
    ensures var r := StartOadin(platform, running, win, ready, spawnThrows, events);
      r.outcome == Returned(true) && forall k | 0 <= k < |r.steps| :: !IsLaunch(r.steps[k])
  {
  }

  /** `toLowerCase` keeps every occurrence, lowered. */
  lemma {:induction false} LowerContains(s: string, p: string)
    requires Contains(s, p)
    ensures Contains(Lower(s), Lower(p))
    decreases |s|
  {
    if StartsWith(s, p) {
      assert Lower(s)[..|p|] == Lower(p);
    } else {
      assert Lower(s)[1..] == Lower(s[1..]);
      LowerContains(s[1..], p);
    }
  }

  /** The win32 launch fails on `error` in the script's output in any letter
      case (`Error`, `ERROR`, ...), on standard output or standard error. */
  lemma WinErrorInAnyCase(w: WinLaunch, p: string)
    requires Lower(p) == "error"
    requires Contains(w.stdout + w.stderr, p)
    ensures WinLaunchFailed(w)
  {
    LowerContains(w.stdout + w.stderr, p);
    assert Contains(Lower(w.stdout + w.stderr), "error");
  }
}

=== FILE: Stream.dfy ===
/** The streaming decoders of `installModelStream`, `chat` and `generate`:
    each chunk of the HTTP response body becomes events on the emitter the
    caller receives. `JSON.parse` is a parameter: it either fails with a
    message or yields a document, of which only `null`-ness and the `status`
    field matter here. */
module Stream {
  import opened Base
  import opened JsText

  /** A parsed document: `null`, or a value whose `status` property is a
      string or something else (a missing field, a number, a primitive). */
  datatype Doc = NullDoc | Value(status: Option<string>)

  datatype ParseResult = Malformed(message: string) | Parsed(doc: Doc)

  /** Why an `error` event is emitted. */
  datatype Reason =
    | ParseFailure(message: string)   // `JSON.parse` threw
    | EmptyChunk                      // a chat chunk held nothing after the prefix
    | StatusOfNull                    // reading `status` of a `null` document threw
    | Transport(message: string)      // the response stream reported an error

  /** The events an emitter delivers, with their payloads. */
  datatype Event<P> = Data(payload: P) | End(final: Option<string>) | Canceled(text: string) | Error(reason: Reason)

  /** What the response stream delivers. */
  datatype Input = Chunk(text: string) | Broken(message: string) | Finished

  const DataPrefix: string := "data:"

  /** The Server-Sent Events field name is dropped when present. */
  function StripData(s: string): (r: string)
    ensures StartsWith(s, DataPrefix) ==> s == DataPrefix + r
    ensures !StartsWith(s, DataPrefix) ==> r == s
  {
    if StartsWith(s, DataPrefix) then s[|DataPrefix|..] else s
  }

  /** The statuses that end a model installation. */
  predicate Finishes(d: Doc) {
    d.Value? && (d.status == Some("success") || d.status == Some("error"))
  }

  /** `installModelStream`, the events of one chunk whose trimmed text is
      `raw` and whose parse, without the prefix, is `p`: `raw` is the payload
      of every event, and `data` is emitted before the status is read, so a
      `null` document yields `data` and then an error. */
  function InstallEvents(raw: string, p: ParseResult): (evs: seq<Event<string>>)
    ensures p.Malformed? ==> evs == [Error(ParseFailure(p.message))]
    ensures p.Parsed? ==> 1 <= |evs| <= 2 && evs[0] == Data(raw)
    ensures End(Some(raw)) in evs <==> p.Parsed? && Finishes(p.doc)
    ensures Canceled(raw) in evs <==> p == Parsed(Value(Some("canceled")))
    ensures Error(StatusOfNull) in evs <==> p == Parsed(NullDoc)
    ensures forall e | e in evs :: e.End? ==> e.final == Some(raw)
    ensures p == Parsed(NullDoc) ==> evs == [Data(raw), Error(StatusOfNull)]
    ensures p == Parsed(Value(Some("canceled"))) ==> evs == [Data(raw), Canceled(raw)]
    ensures p.Parsed? && p.doc.Value? && !Finishes(p.doc) && p.doc.status != Some("canceled") ==> evs == [Data(raw)]
  {
    match p
    case Malformed(m) => [Error(ParseFailure(m))]
    case Parsed(NullDoc) => [Data(raw), Error(StatusOfNull)]
    case Parsed(Value(st)) =>
      [Data(raw)] +
        (if st == Some("success") || st == Some("error") then [End(Some(raw))]
         else if st == Some("canceled") then [Canceled(raw)]
         else [])
  }

  /** `installModelStream`, one chunk: the chunk is trimmed once, and that
      trimmed text is the `data` payload whenever the parse succeeds; the
      bare `end` is never emitted for a chunk. */
  function InstallChunk(parse: string -> ParseResult, chunk: string): (evs: seq<Event<string>>)
    ensures 1 <= |evs| <= 2
    ensures evs[0] == Data(Trim(chunk)) <==> parse(StripData(Trim(chunk))).Parsed?
    ensures forall e | e in evs :: e.Data? ==> IsTrimmed(e.payload)
    ensures End(None) !in evs
    ensures var p := parse(StripData(Trim(chunk)));
      && (End(Some(Trim(chunk))) in evs <==> p.Parsed? && Finishes(p.doc))
      && (Canceled(Trim(chunk)) in evs <==> p == Parsed(Value(Some("canceled"))))
      && (Error(StatusOfNull) in evs <==> p == Parsed(NullDoc))
      && (p.Malformed? ==> evs == [Error(ParseFailure(p.message))])
  {
    var raw := Trim(chunk);
    InstallEvents(raw, parse(StripData(raw)))
  }

  /** The text `chat` and `generate` hand to the parser: trimmed, without the
      prefix, trimmed again. */
  function ChatPayload(chunk: string): (r: string)
    ensures IsTrimmed(r)
  {
    Trim(StripData(Trim(chunk)))
  }

  /** `chat` and `generate`, the events of a chunk whose payload is `json`
      and whose parse is `p`: an empty payload is an error without parsing;
      otherwise the parsed document is the event's payload. */
  function ChatEvents(json: string, p: ParseResult): (evs: seq<Event<Doc>>)
    ensures |evs| == 1
    ensures evs[0].Data? <==> json != [] && p.Parsed?
    ensures evs[0].Data? ==> evs[0].payload == p.doc
    ensures evs[0] == Error(EmptyChunk) <==> json == []
    ensures json != [] && p.Malformed? ==> evs == [Error(ParseFailure(p.message))]
    ensures !evs[0].End? && !evs[0].Canceled?
  {
    if json == [] then [Error(EmptyChunk)]
    else match p
      case Malformed(m) => [Error(ParseFailure(m))]
      case Parsed(d) => [Data(d)]
  }

  /** `chat` and `generate`, one chunk: exactly one event, an error for an
      empty payload or a parse failure, otherwise `data` with the parsed
      document. */
  function ChatChunk(parse: string -> ParseResult, chunk: string): (evs: seq<Event<Doc>>)
    ensures |evs| == 1
    ensures evs[0].Data? <==> ChatPayload(chunk) != [] && parse(ChatPayload(chunk)).Parsed?
    ensures evs[0].Data? ==> evs[0].payload == parse(ChatPayload(chunk)).doc
    ensures evs[0] == Error(EmptyChunk) <==> ChatPayload(chunk) == []
    ensures ChatPayload(chunk) != [] && parse(ChatPayload(chunk)).Malformed? ==>
              evs == [Error(ParseFailure(parse(ChatPayload(chunk)).message))]
    ensures !evs[0].End? && !evs[0].Canceled?
  {
    var json := ChatPayload(chunk);
    ChatEvents(json, parse(json))
  }

  /** The events of a whole response, for a given chunk decoder: a stream
      error and the stream's end are passed on as they come. */
  function Decode<P>(chunkEvents: string -> seq<Event<P>>, inputs: seq<Input>): (evs: seq<Event<P>>)
    ensures inputs == [] ==> evs == []
    ensures Finished in inputs ==> End(None) in evs
    ensures forall m | Broken(m) in inputs :: Error(Transport(m)) in evs
    ensures |inputs| == 1 && inputs[0].Chunk? ==> evs == chunkEvents(inputs[0].text)
  {
    if inputs == [] then []
    else
      var first := match inputs[0]
        case Chunk(t) => chunkEvents(t)
        case Broken(m) => [Error(Transport(m))]
        case Finished => [End(None)];
      first + Decode(chunkEvents, inputs[1..])
  }

  /** The chunk decoder of `installModelStream` for a given parser. */
  function InstallDecoder(parse: string -> ParseResult): string -> seq<Event<string>> {
    t => InstallChunk(parse, t)
  }

  /** `installModelStream`'s emitter: every input yields one or two
      events. */
  function DecodeInstall(parse: string -> ParseResult, inputs: seq<Input>): (evs: seq<Event<string>>)
    ensures |inputs| <= |evs| <= 2 * |inputs|
    ensures |inputs| == 1 && inputs[0].Chunk? ==> evs == InstallChunk(parse, inputs[0].text)
  {
    InstallLength(parse, inputs);
    Decode(InstallDecoder(parse), inputs)
  }

  /** The chunk decoder of `chat` and `generate` for a given parser. */
  function ChatDecoder(parse: string -> ParseResult): string -> seq<Event<Doc>> {
    t => ChatChunk(parse, t)
  }

  /** The one event of a chat or generation stream for one input. */
  function ChatInputEvent(parse: string -> ParseResult, i: Input): Event<Doc> {
    match i
    case Chunk(t) => ChatChunk(parse, t)[0]
    case Broken(m) => Error(Transport(m))
    case Finished => End(None)
  }

  /** The emitter of `chat` and `generate`: exactly one event per input, in
      order, so every chunk is decoded whatever came before it. */
  function DecodeChat(parse: string -> ParseResult, inputs: seq<Input>): (evs: seq<Event<Doc>>)
    ensures |evs| == |inputs|
    ensures forall k | 0 <= k < |inputs| :: evs[k] == ChatInputEvent(parse, inputs[k])
  {
    ChatPointwise(parse, inputs);
    Decode(ChatDecoder(parse), inputs)
  }

  /** The installation stream's last-resort failure message. */
  const FallbackMessage: string := "请求失败"

  /** The message of the envelope a streaming call answers with when the
      request itself fails: the server's `message` when present and
      non-empty, otherwise the error's own message; the installation stream
      falls back further to a fixed text. */
  function SetupFailureMessage(serverMessage: Option<string>, errorMessage: string, withFallback: bool): (m: string)
    ensures serverMessage.Some? && serverMessage.value != [] ==> m == serverMessage.value
    ensures (serverMessage.None? || serverMessage.value == []) && errorMessage != [] ==> m == errorMessage
    ensures withFallback ==> m != []
    ensures withFallback && (serverMessage.None? || serverMessage.value == []) && errorMessage == [] ==> m == FallbackMessage
  {
    if serverMessage.Some? && serverMessage.value != [] then serverMessage.value
    else if errorMessage != [] || !withFallback then errorMessage
    else FallbackMessage
  }

  // ---------------------------------------------------------------- lemmas

  /** Decoding is chunk by chunk: the events of a concatenated response are
      those of its parts, one after the other. */
  lemma {:induction false} DecodeConcat<P>(chunkEvents: string -> seq<Event<P>>, a: seq<Input>, b: seq<Input>)
    ensures Decode(chunkEvents, a + b) == Decode(chunkEvents, a) + Decode(chunkEvents, b)
    decreases |a|
  {
    if a == [] {
      assert a + b == b;
    } else {
      assert (a + b)[0] == a[0];
      assert (a + b)[1..] == a[1..] + b;
      DecodeConcat(chunkEvents, a[1..], b);
    }
  }

  lemma {:induction false} ChatPointwise(parse: string -> ParseResult, inputs: seq<Input>)
    ensures |Decode(ChatDecoder(parse), inputs)| == |inputs|
    ensures forall k | 0 <= k < |inputs| :: Decode(ChatDecoder(parse), inputs)[k] == ChatInputEvent(parse, inputs[k])
    decreases |inputs|
  {
    if inputs != [] {
      var f := ChatDecoder(parse);
      var head := match inputs[0]
        case Chunk(t) => f(t)
        case Broken(m) => [Error(Transport(m))]
        case Finished => [End(None)];
      assert head == [ChatInputEvent(parse, inputs[0])];
      var rest := Decode(f, inputs[1..]);
      assert Decode(f, inputs) == head + rest;
      ChatPointwise(parse, inputs[1..]);
      forall k | 0 < k < |inputs|
        ensures Decode(f, inputs)[k] == ChatInputEvent(parse, inputs[k])
      {
        assert Decode(f, inputs)[k] == rest[k - 1];
        assert inputs[k] == inputs[1..][k - 1];
      }
    }
  }

  lemma {:induction false} InstallLength(parse: string -> ParseResult, inputs: seq<Input>)
    ensures |inputs| <= |Decode(InstallDecoder(parse), inputs)| <= 2 * |inputs|
    decreases |inputs|
  {
    if inputs != [] {
      if inputs[0].Chunk? {
        assert 1 <= |InstallDecoder(parse)(inputs[0].text)| <= 2;
      }
      InstallLength(parse, inputs[1..]);
    }
  }

  /** Whatever comes before and after it, a chunk is decoded in place: the
      stream's events are those of the inputs before it, the chunk's own
      events, then those of the inputs after it. */
  lemma ChunkInContext<P>(chunkEvents: string -> seq<Event<P>>, before: seq<Input>, t: string, after: seq<Input>)
    ensures Decode(chunkEvents, before + [Chunk(t)] + after)
         == Decode(chunkEvents, before) + chunkEvents(t) + Decode(chunkEvents, after)
  {
    DecodeConcat(chunkEvents, before + [Chunk(t)], after);
    DecodeConcat(chunkEvents, before, [Chunk(t)]);
  }

  /** The bare `end` of one input of an installation stream. */
  lemma InstallInputEvents(parse: string -> ParseResult, i: Input)
    ensures End(None) in DecodeInstall(parse, [i]) <==> i == Finished
  {
    var f := InstallDecoder(parse);
    var evs := DecodeInstall(parse, [i]);
    assert [i][1..] == [];
    assert Decode(f, [i][1..]) == [];
    if i.Chunk? {
      assert evs == f(i.text) + [];
      assert f(i.text) == InstallChunk(parse, i.text);
    } else if i.Broken? {
      assert evs == [Error(Transport(i.message))] + [];
    } else {
      assert evs == [End(None)] + [];
    }
  }

  /** The chunk decoders never emit the bare `end` event: it appears in an
      installation's events exactly when the response stream ended. */
  lemma {:induction false} BareEndMeansFinished(parse: string -> ParseResult, inputs: seq<Input>)
    ensures End(None) in DecodeInstall(parse, inputs) <==> Finished in inputs
    decreases |inputs|
  {
    if inputs != [] {
      var head := DecodeInstall(parse, [inputs[0]]);
      var tail := DecodeInstall(parse, inputs[1..]);
      assert inputs == [inputs[0]] + inputs[1..];
      DecodeConcat(InstallDecoder(parse), [inputs[0]], inputs[1..]);
      assert DecodeInstall(parse, inputs) == head + tail;
      InstallInputEvents(parse, inputs[0]);
      BareEndMeansFinished(parse, inputs[1..]);
    }
  }

  /** A chat chunk yields neither `canceled` nor `end`. */
  lemma ChatChunkHasNoStatus(parse: string -> ParseResult, t: string)
    ensures forall e | e in ChatDecoder(parse)(t) :: !e.Canceled? && !e.End?
  {
    var json := ChatPayload(t);
    var evs := ChatEvents(json, parse(json));
    assert ChatDecoder(parse)(t) == evs;
    forall e | e in evs
      ensures !e.Canceled? && !e.End?
    {
      assert e == evs[0];
    }
  }

  /** The events of one input of a chat or generation stream. */
  lemma ChatInputEvents(parse: string -> ParseResult, i: Input)
    ensures forall e | e in DecodeChat(parse, [i]) :: !e.Canceled? && (e.End? ==> e.final.None?)
    ensures End(None) in DecodeChat(parse, [i]) <==> i == Finished
  {
    var f := ChatDecoder(parse);
    var evs := DecodeChat(parse, [i]);
    assert [i][1..] == [];
    assert Decode(f, [i][1..]) == [];
    if i.Chunk? {
      assert evs == f(i.text) + [];
      ChatChunkHasNoStatus(parse, i.text);
    } else if i.Broken? {
      assert evs == [Error(Transport(i.message))] + [];
    } else {
      assert evs == [End(None)] + [];
    }
  }

  /** The chat and generation streams never emit `canceled`, and emit the
      bare `end` exactly when the response stream ended. */
  lemma {:induction false} ChatHasNoStatusEvents(parse: string -> ParseResult, inputs: seq<Input>)
    ensures forall e | e in DecodeChat(parse, inputs) :: !e.Canceled? && (e.End? ==> e.final.None?)
    ensures End(None) in DecodeChat(parse, inputs) <==> Finished in inputs
    decreases |inputs|
  {
    if inputs != [] {
      var head := DecodeChat(parse, [inputs[0]]);
      var tail := DecodeChat(parse, inputs[1..]);
      assert inputs == [inputs[0]] + inputs[1..];
      DecodeConcat(ChatDecoder(parse), [inputs[0]], inputs[1..]);
      assert DecodeChat(parse, inputs) == head + tail;
      ChatInputEvents(parse, inputs[0]);
      ChatHasNoStatusEvents(parse, inputs[1..]);
    }
  }

  /** A frame without surrounding white space, followed by a newline, is
      trimmed back to the frame. */
  lemma TrimLine(framed: string)
    requires IsTrimmed(framed)
    ensures Trim(framed + "\n") == framed
  {
    TrimUndoesPadding("", framed, "\n");
    assert "" + framed + "\n" == framed + "\n";
  }

  /** A frame that starts with the prefix and ends in a trimmed JSON text is
      itself trimmed. */
  lemma FrameIsTrimmed(body: string, json: string)
    requires json != [] && IsTrimmed(json)
    requires |body| >= |json| && body[|body| - |json|..] == json
    ensures IsTrimmed(DataPrefix + body)
  {
    var framed := DataPrefix + body;
    assert framed[0] == 'd';
    assert framed[|framed| - 1] == body[|body| - 1] == json[|json| - 1];
  }

  /** A chat frame `data:`, optional white space, a JSON text and a newline
      reaches the parser as the JSON text itself. */
  lemma ChatFramePayload(json: string, pad: string)
    requires json != [] && IsTrimmed(json) && AllSpace(pad)
    ensures ChatPayload(DataPrefix + (pad + json) + "\n") == json
  {
    var body := pad + json;
    assert body[|body| - |json|..] == json;
    FrameIsTrimmed(body, json);
    TrimLine(DataPrefix + body);
    StartsWithPrefix(DataPrefix, body);
    assert StripData(DataPrefix + body) == body;
    TrimUndoesPadding(pad, json, "");
    assert pad + json + "" == body;
  }

  /** The document of a chat frame becomes the payload of its `data` event. */
  lemma ChatFrameReadBack(parse: string -> ParseResult, json: string, pad: string)
    requires json != [] && IsTrimmed(json) && AllSpace(pad)
    requires parse(json).Parsed?
    ensures ChatChunk(parse, DataPrefix + (pad + json) + "\n") == [Data(parse(json).doc)]
  {
    ChatFramePayload(json, pad);
  }

  /** An installation frame `data:` and a JSON text reaches the parser with
      the prefix removed, and the events carry the frame without its
      newline. */
  lemma InstallFrameReadBack(parse: string -> ParseResult, json: string)
    requires IsTrimmed(json) && json != []
    ensures InstallChunk(parse, DataPrefix + json + "\n") == InstallEvents(DataPrefix + json, parse(json))
  {
    assert json[|json| - |json|..] == json;
    FrameIsTrimmed(json, json);
    TrimLine(DataPrefix + json);
    StartsWithPrefix(DataPrefix, json);
    assert StripData(DataPrefix + json) == json;
  }

  /** A finished installation is reported twice: the raw `data` event and
      the `end` event, carrying the same text. */
  lemma FinishedInstallEmitsDataThenEnd(raw: string, p: ParseResult)
    requires p.Parsed? && Finishes(p.doc)
    ensures InstallEvents(raw, p) == [Data(raw), End(Some(raw))]
  {
  }
}

=== FILE: Version.dfy ===
/** The version comparator of `isOadinLatest`: two regular-expression
    captures from the output of `oadin version`, then a three-way comparison
    against the expected main version and sub-version. */
module Version {
  import opened Base
  import opened JsText

  /** `MAIN_VERSION` and `SUB_VERSION`. */
  const MainVersion: string := "v0.2"
  const SubVersion: string := "2025071814"

  const MainTag: string := "Oadin Version:"
  const SubTag: string := "Oadin SubVersion:"

  /** The digits of a captured `vX.Y`. */
  datatype MainMatch = MainMatch(whole: string, frac: string)

  predicate WellFormed(m: MainMatch) {
    |m.whole| > 0 && |m.frac| > 0 && AllDigits(m.whole) && AllDigits(m.frac)
  }

  /** `v\d+\.\d+` matched at the start of `t`. Each greedy run is followed
      by a character it cannot consume, so the longest runs are the only
      candidates. */
  function VersionToken(t: string): (r: Option<MainMatch>)
    ensures r.Some? ==> WellFormed(r.value)
  {
    if |t| == 0 || t[0] != 'v' then None
    else
      var a := DigitRun(t[1..]);
      if a == 0 || 1 + a >= |t| || t[1 + a] != '.' then None
      else
        var b := DigitRun(t[2 + a..]);
        if b == 0 then None
        else
          assert t[1..1 + a] == t[1..][..a];
          assert t[2 + a..2 + a + b] == t[2 + a..][..b];
          Some(MainMatch(t[1..1 + a], t[2 + a..2 + a + b]))
  }

  /** `\s*(v\d+\.\d+)` matched at the start of `s`. */
  function MainAfterTag(s: string): (r: Option<MainMatch>)
    ensures r.Some? ==> WellFormed(r.value)
  {
    VersionToken(s[SpaceRun(s)..])
  }

  /** `\s*(\d+)` matched at the start of `s`. */
  function SubAfterTag(s: string): (r: Option<string>)
    ensures r.Some? ==> |r.value| > 0 && AllDigits(r.value)
  {
    var t := s[SpaceRun(s)..];
    var n := DigitRun(t);
    if n == 0 then None else Some(t[..n])
  }

  /** The regular expression `tag` followed by the pattern `tail` matches
      starting at position `j` of `s`. */
  predicate MatchesAt<T>(s: string, tag: string, tail: string -> Option<T>, j: nat)
    requires j <= |s|
  {
    StartsWith(s[j..], tag) && tail(s[j + |tag|..]).Some?
  }

  /** The leftmost position, from `i` on, where the pattern matches: how
      `String.prototype.match` without the global flag chooses its match. */
  function FindFrom<T>(s: string, tag: string, tail: string -> Option<T>, i: nat): (r: Option<nat>)
    ensures r.Some? ==> i <= r.value <= |s| && MatchesAt(s, tag, tail, r.value)
    ensures r.Some? ==> forall j | i <= j < r.value :: !MatchesAt(s, tag, tail, j)
    ensures r.None? <==> forall j | i <= j <= |s| :: !MatchesAt(s, tag, tail, j)
    decreases |s| + 1 - i
  {
    if i > |s| then None
    else if MatchesAt(s, tag, tail, i) then Some(i)
    else FindFrom(s, tag, tail, i + 1)
  }

  /** The capture group of the leftmost match, if any. */
  function Capture<T>(s: string, tag: string, tail: string -> Option<T>): (r: Option<T>)
    ensures r.Some? <==> exists j | 0 <= j <= |s| :: MatchesAt(s, tag, tail, j)
    ensures forall j | 0 <= j <= |s| && Leftmost(s, tag, tail, j) :: r == tail(s[j + |tag|..])
  {
    FindsLeftmost(s, tag, tail);
    match FindFrom(s, tag, tail, 0)
    case Some(j) => tail(s[j + |tag|..])
    case None => None
  }

  /** The pattern matches at `j` and nowhere before it. */
  predicate Leftmost<T>(s: string, tag: string, tail: string -> Option<T>, j: nat)
    requires j <= |s|
  {
    MatchesAt(s, tag, tail, j) && forall i | 0 <= i < j :: !MatchesAt(s, tag, tail, i)
  }

  /** Only the leftmost match is found. */
  lemma FindsLeftmost<T>(s: string, tag: string, tail: string -> Option<T>)
    ensures forall j | 0 <= j <= |s| && Leftmost(s, tag, tail, j) :: FindFrom(s, tag, tail, 0) == Some(j)
  {
    forall j | 0 <= j <= |s| && Leftmost(s, tag, tail, j)
      ensures FindFrom(s, tag, tail, 0) == Some(j)
    {
      var f := FindFrom(s, tag, tail, 0);
      assert f.Some?;
      assert !(f.value < j);
      assert !(j < f.value);
    }
  }

  /** `fullStdout.match(/Oadin Version:\s*(v\d+\.\d+)/)`, group 1. */
  function ParseMain(output: string): (r: Option<MainMatch>)
    ensures r.Some? ==> WellFormed(r.value)
  {
    Capture(output, MainTag, MainAfterTag)
  }

  /** `fullStdout.match(/Oadin SubVersion:\s*(\d+)/)`, group 1. */
  function ParseSub(output: string): (r: Option<string>)
    ensures r.Some? ==> |r.value| > 0 && AllDigits(r.value)
  {
    Capture(output, SubTag, SubAfterTag)
  }

  // ------------------------------------------------------- exact decimals

  /** The number `whole + frac / 10^scale`: what `parseFloat` reads from
      `X.Y`, without rounding. */
  datatype Decimal = Decimal(whole: nat, frac: nat, scale: nat)

  function Pow10(k: nat): (p: nat)
    ensures p >= 1
  {
    if k == 0 then 1 else 10 * Pow10(k - 1)
  }

  /** The numerator of the decimal over the denominator `10^scale`. */
  function Numerator(d: Decimal): nat {
    d.whole * Pow10(d.scale) + d.frac
  }

  /** `a < b` as numbers, by cross-multiplying the two fractions. */
  predicate Below(a: Decimal, b: Decimal) {
    Numerator(a) * Pow10(b.scale) < Numerator(b) * Pow10(a.scale)
  }

  /** `parseFloat(versionStr.replace('v', ''))` of a captured `vX.Y`. */
  function MainValue(m: MainMatch): Decimal
    requires WellFormed(m)
  {
    Decimal(DigitsValue(m.whole), DigitsValue(m.frac), |m.frac|)
  }

  /** The expected main version 0.2 and sub-version. */
  const ExpectedMain: Decimal := Decimal(0, 2, 1)
  const ExpectedSub: nat := 2025071814

  /** The three-way comparison: a lower main version is outdated, a higher
      one is current whatever its sub-version, and an equal one is current
      exactly when its sub-version is at least the expected one. */
  function IsCurrent(main: Decimal, sub: nat): (current: bool)
    ensures Below(main, ExpectedMain) ==> !current
    ensures Below(ExpectedMain, main) ==> current
    ensures !Below(main, ExpectedMain) && !Below(ExpectedMain, main) ==> (current <==> sub >= ExpectedSub)
  {
    if Below(main, ExpectedMain) then false
    else if Below(ExpectedMain, main) then true
    else sub >= ExpectedSub
  }

  /** The message of the `TypeError` raised by `null.replace`. */
  const NullMainError: string := "Cannot read properties of null (reading 'replace')"

  /** The parse-and-compare part of `isOadinLatest` on the captured output.
      A missing sub-version answers false whatever the main version says; a
      sub-version without a main version dereferences `null` and rejects. */
  function Assess(output: string): (r: Outcome)
    ensures ParseSub(output).None? ==> r == Returned(false)
    ensures ParseSub(output).Some? && ParseMain(output).None? ==> r == Thrown(NullMainError)
    ensures ParseSub(output).Some? && ParseMain(output).Some? ==>
              r == Returned(IsCurrent(MainValue(ParseMain(output).value), DigitsValue(ParseSub(output).value)))
    ensures !r.Pending?
  {
    match ParseSub(output)
    case None => Returned(false)
    case Some(sub) =>
      match ParseMain(output)
      case None => Thrown(NullMainError)
      case Some(main) => Returned(IsCurrent(MainValue(main), DigitsValue(sub)))
  }

  /** `isOadinLatest`: `versionRun` is the standard output of `oadin version`,
      or `None` when running it failed or timed out. An unsupported platform
      and a failed run both answer false. */
  function IsOadinLatest(platform: Platform, versionRun: Option<string>): (r: Outcome)
    ensures platform == Unsupported || versionRun.None? ==> r == Returned(false)
    ensures platform != Unsupported && versionRun.Some? ==> r == Assess(versionRun.value)
  {
    if platform == Unsupported then Returned(false)
    else match versionRun
      case None => Returned(false)
      case Some(out) => Assess(out)
  }

  // ---------------------------------------------------------------- lemmas

  /** The text `oadin version` prints: a main-version line, then a
      sub-version line, then anything that does not begin with a digit. */
  function Report(whole: string, frac: string, sub: string, rest: string): string {
    MainTag + " v" + whole + "." + frac + "\n" + SubTag + " " + sub + rest
  }

  lemma {:induction false} DigitRunStops(d: string, x: string)
    requires AllDigits(d)
    requires x == [] || !IsDigit(x[0])
    ensures DigitRun(d + x) == |d|
    decreases |d|
  {
    if d == [] {
      assert d + x == x;
    } else {
      assert (d + x)[1..] == d[1..] + x;
      DigitRunStops(d[1..], x);
    }
  }

  /** `VersionToken` takes the two digit runs it finds. */
  lemma VersionTokenTakesRuns(t: string, a: nat, b: nat)
    requires |t| > 1 + a && t[0] == 'v' && t[1 + a] == '.'
    requires 0 < a == DigitRun(t[1..]) && 0 < b == DigitRun(t[2 + a..])
    ensures VersionToken(t) == Some(MainMatch(t[1..1 + a], t[2 + a..2 + a + b]))
  {
  }

  /** Where the parts of `v<whole>.<frac><after>` sit. */
  lemma TokenLayout(whole: string, frac: string, after: string)
    ensures var t := "v" + whole + "." + frac + after; var a := |whole|;
      && |t| > 1 + a && t[0] == 'v' && t[1 + a] == '.'
      && t[1..] == whole + ("." + frac + after) && t[2 + a..] == frac + after
      && t[1..1 + a] == whole && t[2 + a..2 + a + |frac|] == frac
  {
  }

  lemma VersionTokenParses(whole: string, frac: string, after: string)
    requires WellFormed(MainMatch(whole, frac))
    requires after == [] || !IsDigit(after[0])
    ensures VersionToken("v" + whole + "." + frac + after) == Some(MainMatch(whole, frac))
  {
    TokenLayout(whole, frac, after);
    DigitRunStops(whole, "." + frac + after);
    DigitRunStops(frac, after);
    VersionTokenTakesRuns("v" + whole + "." + frac + after, |whole|, |frac|);
  }

  lemma SkipOneSpace(t: string)
    requires t != [] && !IsSpace(t[0])
    ensures (" " + t)[SpaceRun(" " + t)..] == t
  {
    assert (" " + t)[1..] == t;
  }

  lemma MainLineParses(whole: string, frac: string, after: string)
    requires WellFormed(MainMatch(whole, frac))
    requires after == [] || !IsDigit(after[0])
    ensures MainAfterTag(" v" + whole + "." + frac + after) == Some(MainMatch(whole, frac))
  {
    var t := "v" + whole + "." + frac + after;
    assert " v" + whole + "." + frac + after == " " + t;
    SkipOneSpace(t);
    VersionTokenParses(whole, frac, after);
  }

  lemma SubLineParses(sub: string, rest: string)
    requires |sub| > 0 && AllDigits(sub)
    requires rest == [] || !IsDigit(rest[0])
    ensures SubAfterTag(" " + sub + rest) == Some(sub)
  {
    assert " " + sub + rest == " " + (sub + rest);
    SkipOneSpace(sub + rest);
    DigitRunStops(sub, rest);
    assert (sub + rest)[..|sub|] == sub;
  }

  /** Only the first character of `Oadin Version:` is an `O`. */
  lemma TagHasOneO(j: nat)
    requires 1 <= j < |MainTag|
    ensures MainTag[j] != 'O'
  {
  }

  /** No `O` occurs in the rest of a main-version line. */
  lemma LineTailHasNoO(whole: string, frac: string, end: string)
    requires WellFormed(MainMatch(whole, frac))
    requires forall i | 0 <= i < |end| :: end[i] != 'O'
    ensures forall i | 0 <= i < |" v" + whole + "." + frac + end| :: (" v" + whole + "." + frac + end)[i] != 'O'
  {
    var tail := " v" + whole + "." + frac + end;
    forall i | 0 <= i < |tail|
      ensures tail[i] != 'O'
    {
      if i >= 2 + |whole| + 1 + |frac| {
        assert tail[i] == end[i - (2 + |whole| + 1 + |frac|)];
      } else if i >= 2 + |whole| + 1 {
        assert tail[i] == frac[i - (2 + |whole| + 1)];
      } else if i == 2 + |whole| {
        assert tail[i] == '.';
      } else if i >= 2 {
        assert tail[i] == whole[i - 2];
      }
    }
  }

  /** No position inside a leading main-version line starts
      `Oadin SubVersion:`: the only `O` there begins `Oadin Version:`. */
  lemma SubTagNotWithin(s: string, tail: string, j: nat)
    requires |MainTag + tail| <= |s| && s[..|MainTag + tail|] == MainTag + tail
    requires forall i | 0 <= i < |tail| :: tail[i] != 'O'
    requires j < |MainTag + tail|
    ensures !StartsWith(s[j..], SubTag)
  {
    var line := MainTag + tail;
    assert s[j] == line[j];
    if j == 0 {
      assert s[6] == line[6] == MainTag[6] == 'V';
      assert s[j..][6] != SubTag[6];
    } else {
      if j < |MainTag| {
        assert line[j] == MainTag[j];
        TagHasOneO(j);
      } else {
        assert line[j] == tail[j - |MainTag|];
      }
      assert s[j..][0] != SubTag[0];
    }
  }

  /** Where the tag does not start, the pattern does not match. */
  lemma NoTagNoMatch<T>(s: string, tag: string, tail: string -> Option<T>, i: nat, p: nat)
    requires p <= |s| + 1
    requires forall j | i <= j < p :: !StartsWith(s[j..], tag)
    ensures forall j | i <= j < p :: !MatchesAt(s, tag, tail, j)
  {
  }

  /** A match at `p` after positions `i .. p - 1` that all fail is the
      leftmost one from `i`. */
  lemma {:induction false} FindFromSkips<T>(s: string, tag: string, tail: string -> Option<T>, i: nat, p: nat)
    requires i <= p <= |s|
    requires forall j | i <= j < p :: !MatchesAt(s, tag, tail, j)
    requires MatchesAt(s, tag, tail, p)
    ensures FindFrom(s, tag, tail, i) == Some(p)
    decreases p - i
  {
    if i < p {
      FindFromSkips(s, tag, tail, i + 1, p);
    }
  }

  /** The main-version line of a report is read back exactly. */
  lemma ReportMain(whole: string, frac: string, sub: string, rest: string)
    requires WellFormed(MainMatch(whole, frac)) && |sub| > 0 && AllDigits(sub)
    ensures ParseMain(Report(whole, frac, sub, rest)) == Some(MainMatch(whole, frac))
  {
    var s := Report(whole, frac, sub, rest);
    var after := "\n" + SubTag + " " + sub + rest;
    assert s == MainTag + (" v" + whole + "." + frac + after);
    assert s[0..] == s;
    StartsWithPrefix(MainTag, " v" + whole + "." + frac + after);
    assert s[|MainTag|..] == " v" + whole + "." + frac + after;
    MainLineParses(whole, frac, after);
    assert MatchesAt(s, MainTag, MainAfterTag, 0);
    assert FindFrom(s, MainTag, MainAfterTag, 0) == Some(0);
  }

  /** The sub-version pattern matches nowhere within a main-version line. */
  lemma NoSubMatchWithinLine(s: string, tail: string, after: string)
    requires s == (MainTag + tail) + (SubTag + after)
    requires forall i | 0 <= i < |tail| :: tail[i] != 'O'
    ensures forall j | 0 <= j < |MainTag + tail| :: !MatchesAt(s, SubTag, SubAfterTag, j)
  {
    var line := MainTag + tail;
    assert s[..|line|] == line;
    forall j | 0 <= j < |line|
      ensures !StartsWith(s[j..], SubTag)
    {
      SubTagNotWithin(s, tail, j);
    }
    NoTagNoMatch(s, SubTag, SubAfterTag, 0, |line|);
  }

  /** The sub-version line that follows is matched, and its capture is read
      from what follows the tag. */
  lemma SubMatchAfterLine(s: string, line: string, after: string)
    requires s == line + (SubTag + after)
    requires SubAfterTag(after).Some?
    ensures MatchesAt(s, SubTag, SubAfterTag, |line|)
    ensures s[|line| + |SubTag|..] == after
  {
    assert s[|line|..] == SubTag + after;
    StartsWithPrefix(SubTag, after);
    assert s[|line| + |SubTag|..] == after;
  }

  /** After a main-version line, the sub-version line is the leftmost match. */
  lemma SubFoundAfterLine(s: string, tail: string, after: string, sub: string)
    requires s == (MainTag + tail) + (SubTag + after)
    requires forall i | 0 <= i < |tail| :: tail[i] != 'O'
    requires SubAfterTag(after) == Some(sub)
    ensures ParseSub(s) == Some(sub)
  {
    var line := MainTag + tail;
    NoSubMatchWithinLine(s, tail, after);
    SubMatchAfterLine(s, line, after);
    FindFromSkips(s, SubTag, SubAfterTag, 0, |line|);
  }

  /** The sub-version line of a report is read back exactly. */
  lemma ReportSub(whole: string, frac: string, sub: string, rest: string)
    requires WellFormed(MainMatch(whole, frac)) && |sub| > 0 && AllDigits(sub)
    requires rest == [] || !IsDigit(rest[0])
    ensures ParseSub(Report(whole, frac, sub, rest)) == Some(sub)
  {
    var tail := " v" + whole + "." + frac + "\n";
    LineTailHasNoO(whole, frac, "\n");
    SubLineParses(sub, rest);
    assert Report(whole, frac, sub, rest) == (MainTag + tail) + (SubTag + (" " + sub + rest));
    SubFoundAfterLine(Report(whole, frac, sub, rest), tail, " " + sub + rest, sub);
  }

  /** Reading back the report of a build gives exactly that build's main
      version digits and sub-version digits. */
  lemma ReportRoundTrip(whole: string, frac: string, sub: string, rest: string)
    requires WellFormed(MainMatch(whole, frac)) && |sub| > 0 && AllDigits(sub)
    requires rest == [] || !IsDigit(rest[0])
    ensures ParseMain(Report(whole, frac, sub, rest)) == Some(MainMatch(whole, frac))
    ensures ParseSub(Report(whole, frac, sub, rest)) == Some(sub)
    ensures Assess(Report(whole, frac, sub, rest))
            == Returned(IsCurrent(MainValue(MainMatch(whole, frac)), DigitsValue(sub)))
  {
    ReportMain(whole, frac, sub, rest);
    ReportSub(whole, frac, sub, rest);
  }

  /** `MAIN_VERSION` and `SUB_VERSION` read as the constants the comparison
      uses. */
  lemma ExpectedConstants()
    ensures MainAfterTag(MainVersion) == Some(MainMatch("0", "2"))
    ensures MainValue(MainMatch("0", "2")) == ExpectedMain
    ensures AllDigits(SubVersion) && DigitsValue(SubVersion) == ExpectedSub
  {
    assert SpaceRun(MainVersion) == 0;
    assert MainVersion == "v" + "0" + "." + "2" + "";
    VersionTokenParses("0", "2", "");
    DigitsValueSteps(SubVersion);
  }

  /** `DigitsValue` of a digit string with one more digit. */
  lemma DigitsAppend(s: string, c: char)
    requires AllDigits(s) && IsDigit(c)
    ensures AllDigits(s + [c])
    ensures DigitsValue(s + [c]) == DigitsValue(s) * 10 + (c as int - '0' as int)
  {
    assert (s + [c])[..|s|] == s;
  }

  /** `DigitsValue` of a digit string, one digit at a time from the left:
      the value of each prefix is ten times the previous one plus the next
      digit. */
  lemma DigitsPrefix(s: string, k: nat)
    requires AllDigits(s) && k < |s|
    ensures AllDigits(s[..k + 1])
    ensures DigitsValue(s[..k + 1]) == DigitsValue(s[..k]) * 10 + (s[k] as int - '0' as int)
  {
    assert s[..k + 1] == s[..k] + [s[k]];
    DigitsAppend(s[..k], s[k]);
  }

  /** The digit `c` stands for. */
  function Digit(c: char): int {
    c as int - '0' as int
  }

  /** `DigitsValue` of a ten-digit string, by Horner's rule. */
  lemma TenDigits(s: string)
    requires |s| == 10 && AllDigits(s)
    ensures DigitsValue(s)
         == (((((((((Digit(s[0]) * 10 + Digit(s[1])) * 10 + Digit(s[2])) * 10 + Digit(s[3])) * 10
            + Digit(s[4])) * 10 + Digit(s[5])) * 10 + Digit(s[6])) * 10 + Digit(s[7])) * 10
            + Digit(s[8])) * 10 + Digit(s[9]))
  {
    assert s[..0] == [];
    DigitsPrefix(s, 0);
    DigitsPrefix(s, 1);
    DigitsPrefix(s, 2);
    DigitsPrefix(s, 3);
    DigitsPrefix(s, 4);
    DigitsPrefix(s, 5);
    DigitsPrefix(s, 6);
    DigitsPrefix(s, 7);
    DigitsPrefix(s, 8);
    DigitsPrefix(s, 9);
    assert s[..10] == s;
  }

  /** Spells out `DigitsValue` of the ten-digit sub-version. */
  lemma DigitsValueSteps(s: string)
    requires s == SubVersion
    ensures AllDigits(s) && DigitsValue(s) == ExpectedSub
  {
    assert AllDigits(s);
    TenDigits(s);
  }

  /** The report of the expected build is current. */
  lemma ExpectedBuildIsCurrent()
    ensures Assess(Report("0", "2", SubVersion, "")) == Returned(true)
  {
    ExpectedConstants();
    ReportRoundTrip("0", "2", SubVersion, "");
  }

  /** A report without the sub-version line is outdated, whatever its main
      version. */
  lemma LegacyReportIsOutdated(whole: string, frac: string)
    requires WellFormed(MainMatch(whole, frac))
    ensures Assess(MainTag + " v" + whole + "." + frac) == Returned(false)
  {
    var tail := " v" + whole + "." + frac;
    var s := MainTag + " v" + whole + "." + frac;
    assert s == MainTag + tail;
    LineTailHasNoO(whole, frac, "");
    assert tail == " v" + whole + "." + frac + "";
    assert s[..|s|] == s;
    forall j | 0 <= j < |s| + 1
      ensures !StartsWith(s[j..], SubTag)
    {
      if j < |s| {
        SubTagNotWithin(s, tail, j);
      }
    }
    NoTagNoMatch(s, SubTag, SubAfterTag, 0, |s| + 1);
    assert FindFrom(s, SubTag, SubAfterTag, 0).None?;
    assert ParseSub(s).None?;
  }

  /** The value of a one-digit string. */
  lemma OneDigit(c: char)
    requires IsDigit(c)
    ensures AllDigits([c]) && DigitsValue([c]) == c as int - '0' as int
  {
    assert [c][..0] == [];
  }

  /** The value of a two-digit string. */
  lemma TwoDigits(a: char, b: char)
    requires IsDigit(a) && IsDigit(b)
    ensures AllDigits([a, b]) && DigitsValue([a, b]) == 10 * (a as int - '0' as int) + (b as int - '0' as int)
  {
    assert [a, b][..1] == [a];
    OneDigit(a);
  }

  /** `v0.10`, `v0.20` and `v0.2` read as 0.10, 0.20 and 0.2. */
  lemma SampleMainValues()
    ensures WellFormed(MainMatch("0", "10")) && MainValue(MainMatch("0", "10")) == Decimal(0, 10, 2)
    ensures WellFormed(MainMatch("0", "20")) && MainValue(MainMatch("0", "20")) == Decimal(0, 20, 2)
    ensures WellFormed(MainMatch("0", "2")) && MainValue(MainMatch("0", "2")) == ExpectedMain
  {
    OneDigit('0');
    OneDigit('2');
    TwoDigits('1', '0');
    TwoDigits('2', '0');
    assert "0" == ['0'] && "2" == ['2'] && "10" == ['1', '0'] && "20" == ['2', '0'];
  }

  /** Main versions compare as numbers, not as (major, minor) pairs:
      `v0.10` is below `v0.2`, and `v0.20` equals `v0.2`. */
  lemma DecimalNotPair()
    ensures Below(MainValue(MainMatch("0", "10")), MainValue(MainMatch("0", "2")))
    ensures !Below(MainValue(MainMatch("0", "20")), ExpectedMain)
    ensures !Below(ExpectedMain, MainValue(MainMatch("0", "20")))
  {
    SampleMainValues();
    assert Pow10(1) == 10 && Pow10(2) == 100;
  }

  // -------------------------------------------------- ordering of decimals

  lemma CrossLe(A: int, pa: int, B: int, pb: int, C: int, pc: int)
    requires pa > 0 && pb > 0 && pc > 0
    requires A * pb <= B * pa && B * pc <= C * pb
    ensures A * pc <= C * pa
    ensures A * pb < B * pa || B * pc < C * pb ==> A * pc < C * pa
  {
    assert A * pb * pc <= B * pa * pc by { MulRight(A * pb, B * pa, pc); }
    assert B * pc * pa <= C * pb * pa by { MulRight(B * pc, C * pb, pa); }
    assert (A * pc) * pb <= (C * pa) * pb;
    if A * pc > C * pa {
      MulRightStrict(C * pa, A * pc, pb);
    }
    if A * pb < B * pa || B * pc < C * pb {
      if A * pb < B * pa {
        MulRightStrict(A * pb, B * pa, pc);
      } else {
        MulRightStrict(B * pc, C * pb, pa);
      }
      assert (A * pc) * pb < (C * pa) * pb;
      if A * pc >= C * pa {
        MulRight(C * pa, A * pc, pb);
      }
    }
  }

  lemma MulRight(x: int, y: int, k: int)
    requires x <= y && k > 0
    ensures x * k <= y * k
  {
  }

  lemma MulRightStrict(x: int, y: int, k: int)
    requires x < y && k > 0
    ensures x * k < y * k
  {
  }

  /** `<=` then `<=` on decimals is `<=`, strict when either step is. */
  lemma BelowTransitive(a: Decimal, b: Decimal, c: Decimal)
    requires !Below(b, a) && !Below(c, b)
    ensures !Below(c, a)
    ensures Below(a, b) || Below(b, c) ==> Below(a, c)
  {
    CrossLe(Numerator(a), Pow10(a.scale), Numerator(b), Pow10(b.scale), Numerator(c), Pow10(c.scale));
  }

  /** Installing a newer build never makes a current installation outdated:
      a higher main version, or the same main version with a sub-version at
      least as high, is current whenever the older one was. */
  lemma NewerStaysCurrent(m1: Decimal, s1: nat, m2: Decimal, s2: nat)
    requires IsCurrent(m1, s1)
    requires Below(m1, m2) || (!Below(m1, m2) && !Below(m2, m1) && s1 <= s2)
    ensures IsCurrent(m2, s2)
  {
    assert !Below(m1, ExpectedMain);
    BelowTransitive(ExpectedMain, m1, m2);
    if !Below(ExpectedMain, m2) {
      BelowTransitive(m2, m1, ExpectedMain);
    }
  }
}
